=== FILE: README.md ===
# notify-client-go in Dafny

This project is a model of the Go client library for the GOV.AU Notify service. It covers four parts of the library.

- **Client construction.** `NewClient` validates the API key. It then cuts the service ID and the secret out of the key by counting back from its end. Finally it folds the client options over a `base.Client` whose base URL is set to `https://rest-api.notify.gov.au`.
- **Payloads.** `SendEmail`, `SendSMS` and `GenerateTemplatePreview` build a payload. A payload is a list of `(field, value)` items that starts with the mandatory fields. Each option then appends to it. `Payload.MarshalJSON` collapses the list into a single JSON object, and the last item for a field wins. The option kinds are `Personalisation`, `Reference`, `EmailReplyToID`, `SMSSenderID`, `CommonOption` and `UpdatePayloadFunc`. The static roles `SendEmailOption` and `SendSMSOption` decide where each kind may be passed.
- **Responses.** `makeRequest` works in this order:
  1. It applies the request options. The first failing option ends the request.
  2. It signs a token, using the service ID as issuer and the API key as secret.
  3. It sends the request and classifies the exchange. A status of 400 or above always becomes an error. That error is either the decoded `APIError` or the reason the body could not be read or decoded. Any other status gives a buffered response.

  `Response.JSON(v, at...)` descends through the named members and decodes what it finds there. `JSONData` does the same under `"data"`.
- **Error messages.** `APIError.Error()` and `notifyapi.Error.Error()` join the item messages with `", "`.

The modules follow the packages:

| module | file | models |
|---|---|---|
| `Notify` | `client.dfy` | the `notify` package's client |
| `Options` | `options.dfy` | the `notify` package's options |
| `Base` | `base.dfy` | `internal/base` |
| `NotifyApi` | `notifyapi.dfy` | `notifyapi` |

Four support modules sit underneath:

- `Results` holds `Option` and `Result`.
- `Text` models `strings.Join`.
- `LastWins` models the "assign every entry into a map" loop. `MarshalJSON` and `Personalisation.UpdatePayload` share it.
- `JsonDoc` models the part of `encoding/json` the client relies on, over a document tree.

Code the model cannot see becomes a function parameter:

- `url.Parse` is `UrlParser`.
- `createJWT` is `Signer`.
- `http.Client.Do` is `Transport`.
- Each `requestOption` is a `RequestOption`.

A closure held in an `UpdatePayloadFunc` is one of two things. `Appender(item)` stands for the closures the package itself builds. `UserFunc(f)` stands for a function written by a caller.

## Model

| member | source | states |
|---|---|---|
| Notify.ValidateAPIKey | client.go:28-38 | The empty key is reported as empty, any other key shorter than 73 as too short, and every key of 73 or more passes (each direction stated as an iff). |
| Notify.FromEnd | client.go:47-50 | The slice closure returns `end - start` characters, read at `len + start` onwards. |
| Notify.FromEndRecoversBlocks | client.go:47-56 | For any name prefix and separator, decomposing a composed key gives back its service ID and its secret. |
| Notify.KeyIsComposed | client.go:47-56 | Every key of 73 or more characters is its prefix, service-ID block, separator and secret block composed again (the inverse of the above). |
| Notify.ApplyClientOption | client.go:20-26 | `WithBaseURL` succeeds exactly when the target parses. On success it changes only the base URL. On failure it returns the parse error. |
| Notify.ApplyClientOptions | client.go:63-68 | The option loop never changes the service ID, API key or route secret, and it keeps a base URL once one is set. |
| Notify.ClientOptionsOutcome | client.go:63-68 | The loop succeeds iff every target parses, and the last target's URL wins. Otherwise it fails with the error of the first target that does not parse. |
| Notify.NewClient | client.go:28-71 | An empty key fails with "notify: api key is empty" and a short key with "notify: api key is too short". A built client holds `key[n-73..n-37]` as service ID and `key[n-36..]` as API key, both 36 long, with an empty route secret and a base URL set. |
| Notify.NewClientOutcome | client.go:58-68 | For a valid key, construction succeeds iff the default URL and every option target parse, and the base URL is then the last one given. Otherwise the error is that of the first unparsable target, counting the default first. |
| Notify.OnlyKeyBlocksMatter | client.go:47-56 | Two keys with the same service-ID and secret blocks build the same client, so the prefix and separator never matter. |
| Notify.TestKeyDecomposes | client_test.go:27-30 | The key of the package's test builds a client with its two UUIDs as service ID and API key, and with the test server URL as base. |
| Notify.Extend | client.go:128-130 | With package-built updaters, the fold keeps the payload in front and appends one item per updater, in order. |
| Notify.ExtendAppend | client.go:128-130 | Folding over `a + b` equals folding over `a` and then over `b`. |
| Notify.BuiltInExtendIsAppend | client.go:128-130 | What package-built updaters append does not depend on the payload they extend. |
| Notify.ApplyEmailOptions | client.go:128-130 | The `SendEmail` loop over email roles computes the common `UpdatePayload` fold of the options' updaters. |
| Notify.ApplySMSOptions | client.go:153-155 | The `SendSMS` loop over SMS roles computes the common `UpdatePayload` fold of the options' updaters. |
| Notify.SharedOptionsAreRoleBlind | options.go:84-104 | The same updaters give the same payload whether they are passed as SMS options or as email options. |
| Notify.EmailPayload | client.go:123-130 | With package-built options, the email payload is `template_id`, then `email_address`, then one item per option in caller order. |
| Notify.SMSPayload | client.go:148-155 | With package-built options, the SMS payload is `template_id`, then `phone_number`, then one item per option in caller order. |
| Notify.MandatoryFieldsSurvive | client.go:123-130 | When the later items write only built-in fields, the first two items' values are the ones that get marshalled. |
| Notify.EmailMandatoryFields | client.go:123-132 | The marshalled `template_id` and `email_address` are the arguments of `SendEmail`. |
| Notify.SMSMandatoryFields | client.go:148-157 | The marshalled `template_id` and `phone_number` are the arguments of `SendSMS`. |
| Notify.EmailFieldsAccumulate | client.go:128-132 | The marshalled fields of options `a + b` are those of `a`, overridden by what the package-built options `b` write. |
| Notify.ApplyPersonalisations | client.go:102-104 | The preview loop keeps the payload in front and appends one `personalisation` item per list, holding that list collapsed. |
| Notify.PreviewPayload | client.go:97-104 | The preview payload starts empty and holds exactly one `personalisation` item per list. |
| Notify.PreviewSendsLastPersonalisation | client.go:97-106 | A preview marshals to no field at all, or to only `personalisation`, and then only the last list is sent. |
| Notify.SingleKeyCollapse | options.go:12-20 | A payload whose items all share one field collapses to that field with the last value. |
| Notify.DistinctFieldsMarshal | options.go:12-20 | When no field repeats, every item's value is marshalled unchanged. |
| Notify.ClientTestPayload | client_test.go:36-45 | The email send of the package's test builds its five items in order: template ID, address, reference, reply-to ID and personalisation. |
| Notify.ClientTestEmailBody | client_test.go:36-63 | The test's email body has exactly the five fields the test looks for, each with the supplied value. |
| Options.Call | options.go:94-96 | Calling a package-built closure keeps the payload and appends its one item. A caller's function returns what it returns. |
| Options.UpdatePayload | options.go:27-35 | However deeply `CommonOption`s nest, the updater inside decides. A personalisation appends one `personalisation` item holding its collapsed pairs, a package-built closure appends its item, and a caller's function returns what it returns. |
| Options.UpdateSMSPayload | options.go:37-100 | Every implementation's SMS role does what its `UpdatePayload` does. |
| Options.UpdateEmailPayload | options.go:41-104 | Every implementation's email role does what its `UpdatePayload` does. |
| Options.Reference | options.go:45-52 | `Reference` is a `CommonOption` and, on any payload, appends exactly the `reference` item. |
| Options.EmailReplyToID | options.go:54-59 | `EmailReplyToID`, on any payload, appends exactly the `email_reply_to_id` item. |
| Options.SMSSenderID | options.go:61-66 | `SMSSenderID`, on any payload, appends exactly the `sms_sender_id` item. |
| Options.PersonalisationAppendsOneItem | options.go:27-35 | A personalisation appends one item after the untouched payload. Its dictionary has exactly the listed keys, and each key holds the value of its last occurrence. |
| Options.DuplicatePersonalisationKeepsLast | options.go:28-34 | A key listed twice keeps the later value. |
| Options.Contribution | options.go:27-66 | Every package-built option contributes exactly one item, and its field is one of the four built-in fields. |
| Options.BuiltInAppends | options.go:27-90 | A package-built option, bare or inside a `CommonOption`, appends its contribution and leaves the rest of the payload alone. |
| Options.MarshalJSON | options.go:12-20 | The marshalled object has exactly the fields the payload writes, and each field holds the value of its last item. |
| Options.MarshalRoundTrip | options.go:12-20 | Reading the marshalled object back gives the collapsed field map, so marshalling loses nothing and adds nothing. |
| LastWins.KeysOfMembership | options.go:15-17 | A key is collected iff some entry carries it. |
| LastWins.Collapse | options.go:15-17 | The map fed by the assignment loop has exactly the keys of the entries. |
| LastWins.CollapseLastWins | options.go:15-17 | For each key, the map holds the value of the last entry that carries it. |
| LastWins.CollapseHasLastEntry | options.go:15-17 | Every key in the map comes from a last entry whose value it holds (the converse of the two rows above). |
| LastWins.CollapseAppend | options.go:30-32 | Collapsing `a + b` equals `Collapse(a)` overridden by `Collapse(b)`. |
| Text.Join | internal/base/base.go:35 | Joining no parts gives "" and joining one part gives that part. |
| Text.JoinLaidOut | internal/base/base.go:35 | A join places every part at its offset, puts the separator after every part but the last, and ends with the last part. |
| Text.LaidOutIsJoin | internal/base/base.go:35 | Conversely, any string laid out that way is the join, so the layout fixes every character. |
| Text.JoinSnoc | internal/base/base.go:31-35 | Appending one more part extends the join by the separator and that part. |
| JsonDoc.Parse | internal/base/base.go:60-63 | Only a document parses, and an empty buffer fails as "unexpected end of JSON input". |
| JsonDoc.Unmarshal | internal/base/base.go:60-63 | An empty buffer gives an unexpected-end error, a malformed buffer gives a syntax error, and a document is handed to the target. |
| JsonDoc.Members | internal/base/base.go:52-55 | Only an object or `null` decodes into a `map[string]json.RawMessage`. An object gives its members and `null` gives none. Anything else is a type mismatch. |
| JsonDoc.Descend | internal/base/base.go:51-58 | Its own contract covers the first level: with no field names the data is unchanged, a first level that is neither an object nor `null` fails with a type mismatch, and a non-empty result means the first level is an object holding the first named member. Deeper levels are stated by the lemmas below. |
| JsonDoc.Lookup | internal/base/base.go:51-58 | A reference path lookup in the document tree: the empty path is the document, and a found path starts at an object holding its first name. |
| JsonDoc.DescendLookup | internal/base/base.go:51-58 | When the path exists in the document, the descent finds exactly the member at its end. |
| JsonDoc.DescendMismatch | internal/base/base.go:51-55 | When the path reaches, at any depth, a value that is neither an object nor `null` before its last name, the descent fails with that value's type mismatch. |
| JsonDoc.DescendMissing | internal/base/base.go:51-58 | When the path breaks off at `null` or a missing member, the descent gives an empty buffer if only the last name was missing, and "unexpected end" otherwise. |
| JsonDoc.LookupFailsAt | internal/base/base.go:51-58 | A path that does not exist breaks off at some level that is not an object or lacks the next name, so the two lemmas above cover every missing path. |
| JsonDoc.DescendNest | internal/base/base.go:51-58 | Descending along a path finds exactly what was nested along it. |
| Base.Messages | internal/base/base.go:31-34 | The message list has one entry per item, holding that item's message in order. |
| Base.APIErrorMessage | internal/base/base.go:30-36 | No items give "" and one item gives its message. Otherwise the text is laid out as the messages in order with `", "` between neighbours, which fixes it completely. |
| Base.APIErrorMessageUsesMessagesOnly | internal/base/base.go:30-36 | Two errors with the same item messages render alike, whatever their kinds and status codes. |
| Base.DecodeString | internal/base/base.go:140-144 | A string member decodes to itself and `null` gives "". Decoding succeeds iff the value is a string or `null`. |
| Base.DecodeErrorItem | internal/base/base.go:20-23 | Only an object or `null` decodes into an item. `null` gives the empty item. An object decodes iff each of its `error` and `message` members is missing, a string or `null`. Those members decode as strings, and a missing member leaves its field "". |
| Base.DecodeErrorItems | internal/base/base.go:140-144 | An `errors` array decodes iff every element does. It then has one item per element, and each item is that element decoded. |
| Base.DecodeStatusCode | internal/base/base.go:27 | `null` gives 0. A number within the `int64` range decodes to itself and a number outside it fails. A decoded code is always one of these. |
| Base.DecodeAPIError | internal/base/base.go:140-146 | Only an object or `null` decodes into an `APIError`, and `null` gives the empty one. An object decodes iff `errors` is missing, `null` or an array whose items all decode, and `status_code` is missing or decodes. A missing or `null` `errors` leaves no items, a missing `status_code` leaves 0, and present members give their decoded values. |
| Base.DecodeEncodeAPIError | internal/base/base.go:25-28 | Decoding gives back every error body the service can send. |
| Base.JSON | internal/base/base.go:44-66 | A failed response passes through and decodes nothing. A value is decoded iff the response is kept. Otherwise the result is a decode error. An empty body fails with "unexpected end of JSON input" and a malformed one with a syntax error. A first level that is neither an object nor `null` fails as a `map[string]json.RawMessage` type mismatch. When the path exists, the result is the kept response with the target's value, or the target's decode error. |
| Base.JSONPathMismatch | internal/base/base.go:51-55 | A level at any depth that is neither an object nor `null` makes `JSON` fail with that level's type mismatch. |
| Base.JSONPathMissing | internal/base/base.go:51-63 | A path broken off at any depth by `null` or a missing member makes `JSON` fail with "unexpected end of JSON input". |
| Base.JSONOnDocument | internal/base/base.go:44-66 | On a document body, either the path exists and a value is decoded iff the target accepts it, or `JSON` fails with "unexpected end" or a type mismatch. |
| Base.JSONUnwrapsNested | internal/base/base.go:44-66 | A body nesting `j` along `at` yields what the target makes of `j`, or that target's decode error. |
| Base.JSONData | internal/base/base.go:68-70 | A failed response passes through. For an object body, a present `"data"` member decodes by the target, as a value or as its decode error. A missing `"data"` member fails as "unexpected end of JSON input". |
| Base.JSONDataUnwrapsData | internal/base/base.go:68-70 | A `{"data": j}` body yields the target's value for `j`. |
| Base.Authorize | internal/base/base.go:100-110 | Signing uses the service ID and the API key. A signing error is the result. On success the request keeps its headers and gains five more, one of them `Authorization: Bearer <token>`. |
| Base.Do | internal/base/base.go:100-117 | A signing failure returns that error without sending. Otherwise the request is sent unchanged except for the five added headers carrying the token. |
| Base.ApplyRequestOptions | internal/base/base.go:120-125 | With no options the request is unchanged. |
| Base.ApplyRequestOptionsSnoc | internal/base/base.go:120-125 | While the options succeed, each one more is applied to the request the ones before it produced, so they run in order. |
| Base.RequestOptionsStopAtFirstFailure | internal/base/base.go:120-125 | Once an option fails, the result is its error, and the options after it never run. |
| Base.FailureOf | internal/base/base.go:132-146 | A read failure is the error. A readable body gives either an API error or a decode error: "unexpected end" for an empty body, a syntax error for a malformed one. A document becomes an API error iff it decodes as one, and the API error is what it decodes to. Otherwise the error is the decoder's own failure. |
| Base.FailureOfEncoded | internal/base/base.go:132-146 | An error body as the service sends it is classified as that very `APIError`. |
| Base.MakeRequest | internal/base/base.go:119-165 | An option or send failure is the error. A status of 400 or above is always an error: the decoded API error, or the read or decode failure. Below 400, a failure to read or close the body is the error. A response is buffered iff the send succeeded, the status is below 400 and the body was read, and it then carries that status and body. |
| Base.FailedOptionSendsNothing | internal/base/base.go:120-125 | When an option fails, the result does not depend on the signer or the transport. |
| Base.FailedSigningSendsNothing | internal/base/base.go:101-104 | When signing fails, the result does not depend on the transport. |
| Base.BadTemplateIsStructuredError | internal/base/base.go:132-147 | A 400 reply carrying one validation error becomes that structured error, with status 400 and message "bad template", and never a success. |
| NotifyApi.ErrorMessage | notifyapi/notifyapi.go:23-29 | The message is the text a `base.APIError` with the same items renders, whatever its status code. No items give "" and one item gives its message. |
| NotifyApi.ErrorMessageIgnoresCodeAndHeader | notifyapi/notifyapi.go:9-16 | The status code and the header fields never change the message. |
| NotifyApi.ErrorMessageIgnoresKinds | notifyapi/notifyapi.go:18-29 | Errors whose items carry the same messages render alike, whatever their `error` kinds. |
| NotifyApi.TwoItemMessage | notifyapi/notifyapi.go:23-29 | Two items render as "bad template, bad token". |

## Left out

- `createJWT` (HS256 signing, the issued-at claim from `time.Now`) is the `Signer` parameter. Token contents are not modelled.
- `url.Parse` is the `UrlParser` parameter.
- In `Do`, `ResolveReference` against the base URL and the clearing of host and scheme are not modelled. The request path is carried unchanged.
- `Get` and `Post` are not modelled: building an `http.Request` and the `http.Client` transport. The transport is the `Transport` parameter. Only the exchange it returns (status, and the body or its read error) is modelled.
- Closing the response body is not modelled. On the path for statuses below 400, the code closes the body and a close error becomes the response's error. The model folds that error into the body-read error. On the 400-and-above path, the code never closes the body (internal/base/base.go:132-147). The model follows the code.
- `base/options.go` (path parameters and query values) is not part of this model: it is context for the request options, which are parameters here.
- Concrete JSON bytes are not modelled; a body is an abstract document (`Raw`). Case-insensitive member matching, non-integer numbers and the partial filling of `v` before a decode error are not modelled either.
- The response record types (`Template`, `Templates`, `SentEmail`, `SentSMS`, `TemplatePreview`) and the `GetTemplate…` wrappers are not modelled. Their decoding is the `target` parameter of `Base.JSON`.
- The POST calls of `SendEmail`, `SendSMS` and `GenerateTemplatePreview` are not modelled. The model stops at the payload and its marshalled object. The encoder's error branch cannot be reached with the values payloads hold.
- `GenerateTemplatePreview` and the send methods use names that `options.go` does not define. These are the lower-case interface methods `updatePersonalisationPayload`, `updateEmailPayload` and `updateSMSPayload`, the type `payload` (client.go:100, 123, 148) and the type `PersonalisationOption` (client.go:97). The model follows `options.go`: `payload` is taken to be `Payload`, so its `MarshalJSON` is what encodes the body. Preview takes personalisation lists, and the send methods call the exported role methods.
- `WithBaseURL` stores `url.Parse`'s result even when parsing fails, and that result is nil on failure (client.go:22-23). The model keeps no client in that case, just as `NewClient` returns none.
- Go's `len` counts bytes. Keys here are sequences of characters, each one standing for a byte.
- `BadResponse(err)` is the `Bad` constructor of `Base.Response`. It carries the error and nothing else by construction, so it has no contract of its own.
- client_integration_test.go is not part of this model. It needs a live service, and it calls methods that client.go does not define.
- Notify.Extend, Notify.EmailPayload and Notify.SMSPayload: the item layout is stated only for options built by this package. An `UpdatePayloadFunc` written by a caller may rewrite the payload arbitrarily.
- Base.ApplyRequestOptions: its contract states only the empty case. In-order application is the lemma `Base.ApplyRequestOptionsSnoc`, and stop-at-first-failure is the lemma `Base.RequestOptionsStopAtFirstFailure`.
- Nil options are not modelled, because the model has no nil. In Go, each of these panics when called: a nil `ClientOption` (client.go:64), a `CommonOption{}` whose `PayloadUpdater` is nil (options.go:72-74, 85), `UpdatePayloadFunc(nil)` (options.go:95), and a nil `SendEmailOption` or `SendSMSOption`.
- The order of decode errors within one object is not modelled. Go's decoder continues past a type mismatch and reports the first mismatch in the body's text order. A JSON object here is a map, so member order is lost, and `Base.DecodeAPIError` checks `errors` before `status_code`, and `error` before `message`, instead. So a body such as `{"status_code":"x","errors":5}` may report a different `DecodeFailure` than Go does; whether decoding fails is the same.

=== FILE: base.dfy ===
/** The transport layer of the client (internal/base/base.go): API errors and their message,
    the buffered `Response` and its JSON unwrapping, the per-request signing pairing, and the
    classification of an HTTP exchange into success or error. Signing, the HTTP transport and
    request options are parameters; their internals are not part of this model. */
module Base {
  import opened Results
  import opened JsonDoc
  import Text

  const NotifyBaseURL := "https://rest-api.notify.gov.au"

  const Int64Min := -0x8000_0000_0000_0000
  const Int64Max := 0x7fff_ffff_ffff_ffff

  /** Go's `int64`. */
  type Int64 = x: int | Int64Min <= x <= Int64Max

  /** One `{error, message}` entry of an error body (`base.Error`). */
  datatype ErrorItem = ErrorItem(kind: string, message: string)

  /** The decoded body of a response with status 400 or above. */
  datatype APIError = APIError(errors: seq<ErrorItem>, statusCode: Int64)

  /** Every way a request can fail. `External` stands for errors produced by code this model
      leaves abstract: URL parsing, token signing, the transport, a request option, a body read. */
  datatype Error =
    | APIErr(api: APIError)
    | DecodeErr(failure: DecodeFailure)
    | External(message: string)

  /** The message of each item, in order; the kinds are dropped. */
  function Messages(items: seq<ErrorItem>): (r: seq<string>)
    ensures |r| == |items|
    ensures forall i | 0 <= i < |items| :: r[i] == items[i].message
    decreases |items|
  {
    if |items| == 0 then [] else [items[0].message] + Messages(items[1..])
  }

  /** `APIError.Error()`: the item messages in order, separated by ", ". No items give "";
      otherwise the text is laid out as the messages with a separator between neighbours. */
  function APIErrorMessage(e: APIError): (r: string)
    ensures |e.errors| == 0 ==> r == ""
    ensures |e.errors| == 1 ==> r == e.errors[0].message
    ensures |e.errors| > 0 ==> Text.LaidOut(r, Messages(e.errors), ", ")
  {
    var parts := Messages(e.errors);
    if |parts| > 0 then Text.JoinLaidOut(parts, ", "); Text.Join(parts, ", ")
    else Text.Join(parts, ", ")
  }

  /** The message depends on the item messages alone: neither the kinds nor the status code
      can change it. */
  lemma APIErrorMessageUsesMessagesOnly(e1: APIError, e2: APIError)
    requires Messages(e1.errors) == Messages(e2.errors)
    ensures APIErrorMessage(e1) == APIErrorMessage(e2)
  {
  }

  // ---------------------------------------------------------------------------------------
  // Decoding an error body: `json.Unmarshal(body, &apiErr)`. Missing members keep their zero
  // value, `null` leaves a value unchanged, and a value of the wrong kind fails.

  function DecodeString(j: Json): (r: Result<string, DecodeFailure>)
    ensures j.JString? ==> r == Ok(j.s)
    ensures j.JNull? ==> r == Ok("")
    ensures r.Ok? <==> j.JString? || j.JNull?
  {
    match j
    case JString(s) => Ok(s)
    case JNull => Ok("")
    case _ => Err(TypeMismatch(KindOf(j), "string"))
  }

  function StringMember(fs: map<string, Json>, name: string): Result<string, DecodeFailure> {
    if name in fs then DecodeString(fs[name]) else Ok("")
  }

  /** One element of `errors`: an object's "error" and "message" members, each "" when
      missing or `null`; `null` itself is the empty item. */
  function DecodeErrorItem(j: Json): (r: Result<ErrorItem, DecodeFailure>)
    ensures r.Ok? ==> j.JObject? || j.JNull?
    ensures j.JNull? ==> r == Ok(ErrorItem("", ""))
    ensures j.JObject? ==> (r.Ok? <==> StringMember(j.fields, "error").Ok? && StringMember(j.fields, "message").Ok?)
    ensures j.JObject? && r.Ok? ==>
              && ("error" in j.fields ==> DecodeString(j.fields["error"]) == Ok(r.value.kind))
              && ("error" !in j.fields ==> r.value.kind == "")
              && ("message" in j.fields ==> DecodeString(j.fields["message"]) == Ok(r.value.message))
              && ("message" !in j.fields ==> r.value.message == "")
    ensures j.JObject? && "error" in j.fields && j.fields["error"].JString?
                       && "message" in j.fields && j.fields["message"].JString? ==>
              r == Ok(ErrorItem(j.fields["error"].s, j.fields["message"].s))
  {
    match j
    case JObject(fs) =>
      var kind :- StringMember(fs, "error");
      var message :- StringMember(fs, "message");
      Ok(ErrorItem(kind, message))
    case JNull => Ok(ErrorItem("", ""))
    case _ => Err(TypeMismatch(KindOf(j), "base.Error"))
  }

  function DecodeErrorItems(js: seq<Json>): (r: Result<seq<ErrorItem>, DecodeFailure>)
    ensures r.Ok? <==> forall i | 0 <= i < |js| :: DecodeErrorItem(js[i]).Ok?
    ensures r.Ok? ==> |r.value| == |js|
    ensures r.Ok? ==> forall i | 0 <= i < |js| :: DecodeErrorItem(js[i]) == Ok(r.value[i])
    decreases |js|
  {
    if |js| == 0 then Ok([])
    else
      var head :- DecodeErrorItem(js[0]);
      var tail :- DecodeErrorItems(js[1..]);
      Ok([head] + tail)
  }

  function DecodeStatusCode(j: Json): (r: Result<Int64, DecodeFailure>)
    ensures r.Ok? ==> j.JNull? || (j.JNumber? && r.value == j.n)
    ensures j.JNull? ==> r == Ok(0)
    ensures j.JNumber? && Int64Min <= j.n <= Int64Max ==> r == Ok(j.n)
    ensures j.JNumber? && !(Int64Min <= j.n <= Int64Max) ==> r.Err?
  {
    match j
    case JNumber(n) => if Int64Min <= n <= Int64Max then Ok(n) else Err(TypeMismatch("number", "int64"))
    case JNull => Ok(0)
    case _ => Err(TypeMismatch(KindOf(j), "int64"))
  }

  /** `json.Unmarshal(body, &apiErr)`: `null` leaves the zero `APIError`. An object decodes
      iff its `errors` member is missing, `null` or an array of decodable items, and its
      `status_code` member is missing or decodes; a missing or `null` member leaves its field
      at the zero value. */
  function DecodeAPIError(j: Json): (r: Result<APIError, DecodeFailure>)
    ensures r.Ok? ==> j.JObject? || j.JNull?
    ensures j.JNull? ==> r == Ok(APIError([], 0))
    ensures j.JObject? ==>
              (r.Ok? <==>
                 && ("errors" !in j.fields || j.fields["errors"].JNull?
                     || (j.fields["errors"].JArray? && DecodeErrorItems(j.fields["errors"].items).Ok?))
                 && ("status_code" !in j.fields || DecodeStatusCode(j.fields["status_code"]).Ok?))
    ensures j.JObject? && r.Ok? ==>
              && (("errors" !in j.fields || j.fields["errors"].JNull?) ==> r.value.errors == [])
              && ("errors" in j.fields && j.fields["errors"].JArray? ==>
                    DecodeErrorItems(j.fields["errors"].items) == Ok(r.value.errors))
              && ("status_code" !in j.fields ==> r.value.statusCode == 0)
              && ("status_code" in j.fields ==> DecodeStatusCode(j.fields["status_code"]) == Ok(r.value.statusCode))
  {
    match j
    case JObject(fs) =>
      var errors :-
        if "errors" !in fs then Ok([])
        else match fs["errors"]
          case JArray(xs) => DecodeErrorItems(xs)
          case JNull => Ok([])
          case other => Err(TypeMismatch(KindOf(other), "[]base.Error"));
      var code :- if "status_code" in fs then DecodeStatusCode(fs["status_code"]) else Ok(0);
      Ok(APIError(errors, code))
    case JNull => Ok(APIError([], 0))
    case _ => Err(TypeMismatch(KindOf(j), "base.APIError"))
  }

  /** The error body the service sends: `{"status_code": …, "errors": [{"error": …, "message": …}]}`. */
  function EncodeAPIError(e: APIError): Json {
    JObject(map[
      "status_code" := JNumber(e.statusCode),
      "errors" := JArray(seq(|e.errors|, i requires 0 <= i < |e.errors| => EncodeErrorItem(e.errors[i])))])
  }

  function EncodeErrorItem(item: ErrorItem): Json {
    JObject(map["error" := JString(item.kind), "message" := JString(item.message)])
  }

  /** Decoding recovers every error body the service sends. */
  lemma DecodeEncodeAPIError(e: APIError)
    ensures DecodeAPIError(EncodeAPIError(e)) == Ok(e)
  {
    var xs := seq(|e.errors|, i requires 0 <= i < |e.errors| => EncodeErrorItem(e.errors[i]));
    DecodeEncodeErrorItems(e.errors, xs);
  }

  lemma {:induction false} DecodeEncodeErrorItems(items: seq<ErrorItem>, xs: seq<Json>)
    requires |xs| == |items|
    requires forall i | 0 <= i < |items| :: xs[i] == EncodeErrorItem(items[i])
    ensures DecodeErrorItems(xs) == Ok(items)
    decreases |items|
  {
    if |items| > 0 {
      assert DecodeErrorItem(xs[0]) == Ok(items[0]);
      DecodeEncodeErrorItems(items[1..], xs[1..]);
      assert items == [items[0]] + items[1..];
    }
  }

  // ---------------------------------------------------------------------------------------
  // Responses

  /** `base.Response`. `Bad` is what `BadResponse(err)` builds: an error and nothing else.
      `Buffered` is a successful exchange: its status and the whole body, read to the end. */
  datatype Response = Bad(error: Error) | Buffered(status: int, body: Raw)

  /** What `JSON` leaves behind: the response to chain on, and the value written into `v`. */
  datatype Decoded<T> = Decoded(response: Response, value: Option<T>)

  /** `Response.JSON(v, at...)`: unless the response already failed, descend through the
      members named by `at` and decode what is there with `target`. */
  function JSON<T>(resp: Response, target: Json -> Result<T, DecodeFailure>, at: seq<string>): (r: Decoded<T>)
    ensures resp.Bad? ==> r == Decoded(resp, None)
    ensures r.value.Some? <==> resp.Buffered? && r.response == resp
    ensures resp.Buffered? && r.response != resp ==> r.response.Bad? && r.response.error.DecodeErr?
    ensures r.value.Some? ==>
              Descend(resp.body, at).Ok? && Unmarshal(Descend(resp.body, at).value, target) == Ok(r.value.value)
    ensures resp.Buffered? && |at| > 0 && resp.body.Doc? && !resp.body.json.JObject? && !resp.body.json.JNull? ==>
              r == Decoded(Bad(DecodeErr(TypeMismatch(KindOf(resp.body.json), RawObjectType))), None)
    ensures resp.Buffered? && resp.body == Absent ==> r == Decoded(Bad(DecodeErr(UnexpectedEnd)), None)
    ensures resp.Buffered? && resp.body == Malformed ==> r == Decoded(Bad(DecodeErr(Syntax)), None)
    ensures resp.Buffered? && resp.body.Doc? && Lookup(resp.body.json, at).Some? ==>
              r == match target(Lookup(resp.body.json, at).value)
                   case Ok(v) => Decoded(resp, Some(v))
                   case Err(f) => Decoded(Bad(DecodeErr(f)), None)
  {
    match resp
    case Bad(_) => Decoded(resp, None)
    case Buffered(_, body) =>
      if body.Doc? then DescendLookup(body.json, at); JSONAfterDescend(resp, target, Descend(body, at))
      else JSONAfterDescend(resp, target, Descend(body, at))
  }

  /** The rest of `JSON` once the descent is done: decode what was found. */
  function JSONAfterDescend<T>(resp: Response, target: Json -> Result<T, DecodeFailure>, found: Result<Raw, DecodeFailure>): Decoded<T> {
      match found
      case Err(f) => Decoded(Bad(DecodeErr(f)), None)
      case Ok(data) =>
        match Unmarshal(data, target)
        case Err(f) => Decoded(Bad(DecodeErr(f)), None)
        case Ok(v) => Decoded(resp, Some(v))
  }

  /** A level on the path, at any depth, that is neither an object nor `null` makes `JSON`
      fail with the type mismatch of that level. */
  lemma JSONPathMismatch<T>(status: int, j: Json, target: Json -> Result<T, DecodeFailure>, at: seq<string>, k: nat)
    requires k < |at| && Lookup(j, at[..k]).Some?
    requires var x := Lookup(j, at[..k]).value; !x.JObject? && !x.JNull?
    ensures JSON(Buffered(status, Doc(j)), target, at)
         == Decoded(Bad(DecodeErr(TypeMismatch(KindOf(Lookup(j, at[..k]).value), RawObjectType))), None)
  {
    DescendMismatch(j, at, k);
  }

  /** A path broken off by `null` or by a missing member, at any depth, makes `JSON` fail
      with "unexpected end of JSON input": the missing member reads as an empty buffer. */
  lemma JSONPathMissing<T>(status: int, j: Json, target: Json -> Result<T, DecodeFailure>, at: seq<string>, k: nat)
    requires k < |at| && Lookup(j, at[..k]).Some?
    requires var x := Lookup(j, at[..k]).value; x.JNull? || (x.JObject? && at[k] !in x.fields)
    ensures JSON(Buffered(status, Doc(j)), target, at) == Decoded(Bad(DecodeErr(UnexpectedEnd)), None)
  {
    DescendMissing(j, at, k);
  }

  /** Every document body falls in exactly one of three cases: the path exists and the target
      decides; or it breaks off at some level and `JSON` fails with that level's type mismatch
      or with "unexpected end". */
  lemma {:induction false} JSONOnDocument<T>(status: int, j: Json, target: Json -> Result<T, DecodeFailure>, at: seq<string>)
    ensures var r := JSON(Buffered(status, Doc(j)), target, at);
            || (Lookup(j, at).Some? && r.value.Some? == target(Lookup(j, at).value).Ok?)
            || (Lookup(j, at).None? && r.response.Bad? && r.value.None?
                && (r.response.error == DecodeErr(UnexpectedEnd) || r.response.error.failure.TypeMismatch?))
  {
    if Lookup(j, at).None? {
      var k := LookupFailsAt(j, at);
      var x := Lookup(j, at[..k]).value;
      if x.JNull? || (x.JObject? && at[k] !in x.fields) {
        JSONPathMissing(status, j, target, at, k);
      } else {
        JSONPathMismatch(status, j, target, at, k);
      }
    }
  }

  /** A body that nests `j` along `at` unwraps to exactly what `target` makes of `j`. */
  lemma JSONUnwrapsNested<T>(status: int, at: seq<string>, j: Json, target: Json -> Result<T, DecodeFailure>)
    ensures var resp := Buffered(status, Doc(Nest(at, j)));
            JSON(resp, target, at) ==
              match target(j)
              case Ok(v) => Decoded(resp, Some(v))
              case Err(f) => Decoded(Bad(DecodeErr(f)), None)
  {
    DescendNest(at, j);
  }

  /** `Response.JSONData(v)`: `JSON` scoped to the "data" member. */
  function JSONData<T>(resp: Response, target: Json -> Result<T, DecodeFailure>): (r: Decoded<T>)
    ensures resp.Bad? ==> r == Decoded(resp, None)
    ensures r.value.Some? ==> resp.Buffered? && r.response == resp
    ensures resp.Buffered? && resp.body.Doc? && resp.body.json.JObject? ==>
              var fs := resp.body.json.fields;
              && ("data" in fs ==>
                    r == match target(fs["data"])
                         case Ok(v) => Decoded(resp, Some(v))
                         case Err(f) => Decoded(Bad(DecodeErr(f)), None))
              && ("data" !in fs ==> r == Decoded(Bad(DecodeErr(UnexpectedEnd)), None))
  {
    JSON(resp, target, ["data"])
  }

  /** A `{"data": j}` body unwraps to what `target` makes of `j`. */
  lemma JSONDataUnwrapsData<T>(status: int, j: Json, target: Json -> Result<T, DecodeFailure>)
    requires target(j).Ok?
    ensures JSONData(Buffered(status, Doc(JObject(map["data" := j]))), target).value == Some(target(j).value)
  {
    assert Nest(["data"], j) == JObject(map["data" := j]);
    JSONUnwrapsNested(status, ["data"], j, target);
  }

  // ---------------------------------------------------------------------------------------
  // Requests

  /** The parsed base URL. Parsing is done by `url.Parse`, which is not part of this model. */
  datatype Url = Url(text: string)

  /** `base.Client`; the embedded `http.Client` is the `Transport` parameter. */
  datatype Client = Client(baseUrl: Option<Url>, serviceId: string, apiKey: string, routeSecret: string)

  datatype Header = Header(name: string, value: string)

  /** An outgoing request; `body` is `Absent` for a GET. */
  datatype Request = Request(verb: string, path: string, body: Raw, headers: seq<Header>)

  /** What the transport hands back: a status, and the body or the error reading it. */
  datatype HttpResponse = HttpResponse(status: int, body: Result<Raw, Error>)

  /** `createJWT(issuer, secret)`: an HS256 token, or the error making the signer. */
  type Signer = (string, string) -> Result<string, Error>

  /** `http.Client.Do` on the prepared request. */
  type Transport = Request -> Result<HttpResponse, Error>

  /** A `requestOption`: updates the request or refuses it. */
  type RequestOption = Request -> Result<Request, Error>

  const UserAgent := "NOTIFY-API-GO-CLIENT/0.1.0"

  /** The headers `Do` adds, carrying the bearer `token`. `Header.Add` stores each name in
      canonical form, so the source's "Content-type" and "User-agent" go out as
      "Content-Type" and "User-Agent". */
  function AuthHeaders(token: string): seq<Header> {
    [ Header("Content-Type", "application/json"),
      Header("Accept", "application/json"),
      Header("Authorization", "Bearer " + token),
      Header("X-Custom-Forwarder", ""),
      Header("User-Agent", UserAgent) ]
  }

  /** The first half of `Client.Do`: sign a fresh token with the service ID as issuer and
      the API key as secret, and add it to the request's headers. */
  function Authorize(c: Client, sign: Signer, req: Request): (r: Result<Request, Error>)
    ensures sign(c.serviceId, c.apiKey).Err? ==> r == Err(sign(c.serviceId, c.apiKey).error)
    ensures r.Ok? <==> sign(c.serviceId, c.apiKey).Ok?
    ensures r.Ok? ==>
              && r.value.verb == req.verb && r.value.path == req.path && r.value.body == req.body
              && |r.value.headers| == |req.headers| + 5
              && r.value.headers[..|req.headers|] == req.headers
              && Header("Authorization", "Bearer " + sign(c.serviceId, c.apiKey).value) in r.value.headers
  {
    var token :- sign(c.serviceId, c.apiKey);
    Ok(req.(headers := req.headers + AuthHeaders(token)))
  }

  /** `Client.Do`: sign, then send. A signing failure means nothing is sent. */
  function Do(c: Client, sign: Signer, send: Transport, req: Request): (r: Result<HttpResponse, Error>)
    ensures sign(c.serviceId, c.apiKey).Err? ==> r == Err(sign(c.serviceId, c.apiKey).error)
    ensures sign(c.serviceId, c.apiKey).Ok? ==>
              r == send(req.(headers := req.headers + AuthHeaders(sign(c.serviceId, c.apiKey).value)))
  {
    var authorized :- Authorize(c, sign, req);
    send(authorized)
  }

  /** The option loop of `makeRequest`: apply each in order, stopping at the first error. */
  function ApplyRequestOptions(req: Request, options: seq<RequestOption>): (r: Result<Request, Error>)
    ensures |options| == 0 ==> r == Ok(req)
    decreases |options|
  {
    if |options| == 0 then Ok(req)
    else
      var next :- options[0](req);
      ApplyRequestOptions(next, options[1..])
  }

  /** When the options so far succeed, one more option is applied to the request they
      produced: the options run in order, each on the previous one's result. */
  lemma {:induction false} ApplyRequestOptionsSnoc(req: Request, done: seq<RequestOption>, o: RequestOption)
    requires ApplyRequestOptions(req, done).Ok?
    ensures ApplyRequestOptions(req, done + [o]) == o(ApplyRequestOptions(req, done).value)
    decreases |done|
  {
    if |done| == 0 {
      assert done + [o] == [o];
      assert [o][1..] == [];
    } else {
      var next := done[0](req).value;
      assert (done + [o])[0] == done[0];
      assert (done + [o])[1..] == done[1..] + [o];
      ApplyRequestOptionsSnoc(next, done[1..], o);
    }
  }

  /** Once an option fails, the options after it are never applied and its error is the result. */
  lemma {:induction false} RequestOptionsStopAtFirstFailure(
    req: Request, done: seq<RequestOption>, failing: RequestOption, rest: seq<RequestOption>, e: Error)
    requires ApplyRequestOptions(req, done).Ok?
    requires failing(ApplyRequestOptions(req, done).value) == Err(e)
    ensures ApplyRequestOptions(req, done + [failing] + rest) == Err(e)
    decreases |done|
  {
    if |done| > 0 {
      assert (done + [failing] + rest)[1..] == done[1..] + [failing] + rest;
      RequestOptionsStopAtFirstFailure(done[0](req).value, done[1..], failing, rest, e);
    } else {
      assert (done + [failing] + rest)[1..] == rest;
    }
  }

  /** The error of an exchange whose status is 400 or above: the decoded API error, or why
      the body could not be read or decoded. */
  function FailureOf(body: Result<Raw, Error>): (r: Error)
    ensures body.Err? ==> r == body.error
    ensures body.Ok? ==> r.APIErr? || r.DecodeErr?
    ensures body == Ok(Absent) ==> r == DecodeErr(UnexpectedEnd)
    ensures body == Ok(Malformed) ==> r == DecodeErr(Syntax)
    ensures body.Ok? && r.APIErr? ==> body.value.Doc? && DecodeAPIError(body.value.json) == Ok(r.api)
    ensures body.Ok? && body.value.Doc? ==> (r.APIErr? <==> DecodeAPIError(body.value.json).Ok?)
    ensures body.Ok? && body.value.Doc? && r.DecodeErr? ==> DecodeAPIError(body.value.json) == Err(r.failure)
  {
    match body
    case Err(e) => e
    case Ok(raw) =>
      match Unmarshal(raw, DecodeAPIError)
      case Ok(apiErr) => APIErr(apiErr)
      case Err(f) => DecodeErr(f)
  }

  /** `makeRequest`: apply the request options, sign and send, then classify. A status of
      400 or above is always an error; anything else is the buffered body. */
  function MakeRequest(c: Client, sign: Signer, send: Transport, req: Request, options: seq<RequestOption>): (r: Response)
    ensures ApplyRequestOptions(req, options).Err? ==> r == Bad(ApplyRequestOptions(req, options).error)
    ensures ApplyRequestOptions(req, options).Ok? ==>
              var sent := Do(c, sign, send, ApplyRequestOptions(req, options).value);
              && (sent.Err? ==> r == Bad(sent.error))
              && (sent.Ok? && sent.value.status >= 400 ==> r.Bad? && r.error == FailureOf(sent.value.body))
              && (sent.Ok? && sent.value.status < 400 && sent.value.body.Err? ==> r == Bad(sent.value.body.error))
              && (r.Buffered? <==> sent.Ok? && sent.value.status < 400 && sent.value.body.Ok?)
              && (r.Buffered? ==> r == Buffered(sent.value.status, sent.value.body.value))
  {
    match ApplyRequestOptions(req, options)
    case Err(e) => Bad(e)
    case Ok(prepared) =>
      match Do(c, sign, send, prepared)
      case Err(e) => Bad(e)
      case Ok(resp) =>
        if resp.status >= 400 then Bad(FailureOf(resp.body))
        else
          match resp.body
          case Err(e) => Bad(e)
          case Ok(raw) => Buffered(resp.status, raw)
  }

  /** An error body as the service sends it is classified as that very `APIError`. */
  lemma FailureOfEncoded(e: APIError)
    ensures FailureOf(Ok(Doc(EncodeAPIError(e)))) == APIErr(e)
  {
    DecodeEncodeAPIError(e);
  }

  /** A failing request option means nothing is signed or sent: the result is the same
      whatever the signer and transport would have done. */
  lemma FailedOptionSendsNothing(
    c: Client, sign1: Signer, sign2: Signer, send1: Transport, send2: Transport,
    req: Request, options: seq<RequestOption>)
    requires ApplyRequestOptions(req, options).Err?
    ensures MakeRequest(c, sign1, send1, req, options) == MakeRequest(c, sign2, send2, req, options)
  {
  }

  /** A signing failure means nothing is sent. */
  lemma FailedSigningSendsNothing(
    c: Client, sign: Signer, send1: Transport, send2: Transport, req: Request, options: seq<RequestOption>)
    requires sign(c.serviceId, c.apiKey).Err?
    ensures MakeRequest(c, sign, send1, req, options) == MakeRequest(c, sign, send2, req, options)
  {
  }

  /** A service answering 400 with one validation error surfaces as that structured error,
      status code and message included, and never as a success. */
  lemma BadTemplateIsStructuredError(c: Client, sign: Signer, send: Transport, req: Request)
    requires sign(c.serviceId, c.apiKey).Ok?
    requires var e := APIError([ErrorItem("ValidationError", "bad template")], 400);
             send(Authorize(c, sign, req).value) == Ok(HttpResponse(400, Ok(Doc(EncodeAPIError(e)))))
    ensures var r := MakeRequest(c, sign, send, req, []);
            && r == Bad(APIErr(APIError([ErrorItem("ValidationError", "bad template")], 400)))
            && r.error.api.statusCode == 400
            && APIErrorMessage(r.error.api) == "bad template"
  {
    DecodeEncodeAPIError(APIError([ErrorItem("ValidationError", "bad template")], 400));
  }
}

=== FILE: client.dfy ===
/** The `notify` package's client (client.go): API-key validation and decomposition, client
    construction as a fold over client options, and the payloads the send and preview calls
    build before posting them. */
module Notify {
  import opened Results
  import opened LastWins
  import opened Options
  import JsonDoc
  import Base

  /** The shortest acceptable key: a 36-character service ID, a separator and a
      36-character secret, with no name prefix. */
  const MinKeyLength := 73

  /** Length of the service ID and of the secret. */
  const BlockLength := 36

  datatype KeyError = EmptyKey | KeyTooShort

  /** The text of the error `validateAPIKey` returns. */
  function KeyErrorText(e: KeyError): string {
    match e
    case EmptyKey => "api key is empty"
    case KeyTooShort => "api key is too short"
  }

  /** The two messages `NewClient` reports for a rejected key. */
  lemma KeyErrorMessages()
    ensures "notify: " + KeyErrorText(EmptyKey) == "notify: api key is empty"
    ensures "notify: " + KeyErrorText(KeyTooShort) == "notify: api key is too short"
  {
  }

  /** `validateAPIKey`: the empty key is rejected as empty before its length is looked at; any
      other key shorter than the minimum is too short; every longer key passes. Go's `len`
      counts bytes; each character of a key here stands for one byte. */
  function ValidateAPIKey(apiKey: string): (r: Option<KeyError>)
    ensures r == Some(EmptyKey) <==> |apiKey| == 0
    ensures r == Some(KeyTooShort) <==> 0 < |apiKey| < MinKeyLength
    ensures r == None <==> |apiKey| >= MinKeyLength
  {
    if apiKey == "" then Some(EmptyKey)
    else if |apiKey| < MinKeyLength then Some(KeyTooShort)
    else None
  }

  /** The `slice(start, end)` closure of `NewClient`: offsets count back from the end. */
  function FromEnd(apiKey: string, start: int, end: int): (r: string)
    requires -|apiKey| <= start <= end <= 0
    ensures |r| == end - start
    ensures forall i | 0 <= i < |r| :: r[i] == apiKey[|apiKey| + start + i]
  {
    apiKey[|apiKey| + start..|apiKey| + end]
  }

  /** A key as issued: an optional name prefix, the service ID, one separator character and
      the secret. */
  function ComposeKey(prefix: string, serviceId: string, separator: char, secret: string): string {
    prefix + serviceId + [separator] + secret
  }

  /** Decomposition undoes composition: the service ID and the secret come back out of a
      composed key, whatever its prefix and separator. */
  lemma FromEndRecoversBlocks(prefix: string, serviceId: string, separator: char, secret: string)
    requires |serviceId| == BlockLength && |secret| == BlockLength
    ensures var key := ComposeKey(prefix, serviceId, separator, secret);
            && |key| >= MinKeyLength
            && FromEnd(key, -73, -37) == serviceId
            && FromEnd(key, -36, 0) == secret
  {
    var key := ComposeKey(prefix, serviceId, separator, secret);
    assert key[|prefix|..|prefix| + 36] == serviceId;
    assert key[|prefix| + 37..] == secret;
  }

  /** Composition undoes decomposition: every key long enough is its prefix, its service ID,
      its separator and its secret, so nothing else in it can matter. */
  lemma KeyIsComposed(key: string)
    requires |key| >= MinKeyLength
    ensures var n := |key|;
            key == ComposeKey(key[..n - 73], FromEnd(key, -73, -37), key[n - 37], FromEnd(key, -36, 0))
  {
    var n := |key|;
    assert key == key[..n - 73] + key[n - 73..n - 37] + [key[n - 37]] + key[n - 36..];
  }

  /** The options a caller can pass to `NewClient`. `ClientOption` is a function over the
      internal `base.Client`, which no code outside the module can name, so `WithBaseURL` is
      the only way a caller gets one. */
  datatype ClientOption = WithBaseURL(target: string)

  /** `url.Parse`, which is not part of this model. */
  type UrlParser = string -> Result<Base.Url, Base.Error>

  /** Applying `WithBaseURL(target)`: the parsed URL replaces the base URL and nothing else
      changes; a parse error is the option's error. */
  function ApplyClientOption(parse: UrlParser, c: Base.Client, option: ClientOption): (r: Result<Base.Client, Base.Error>)
    ensures r.Ok? <==> parse(option.target).Ok?
    ensures r.Err? ==> r.error == parse(option.target).error
    ensures r.Ok? ==> r.value == c.(baseUrl := Some(parse(option.target).value))
  {
    var url :- parse(option.target);
    Ok(c.(baseUrl := Some(url)))
  }

  /** The option loop of `NewClient`: apply each option in order, stopping at the first error. */
  function ApplyClientOptions(parse: UrlParser, c: Base.Client, options: seq<ClientOption>): (r: Result<Base.Client, Base.Error>)
    ensures r.Ok? ==> r.value == c.(baseUrl := r.value.baseUrl)
    ensures r.Ok? && c.baseUrl.Some? ==> r.value.baseUrl.Some?
    decreases |options|
  {
    if |options| == 0 then Ok(c)
    else
      var next :- ApplyClientOption(parse, c, options[0]);
      ApplyClientOptions(parse, next, options[1..])
  }

  /** Index `i` holds the first target that does not parse. */
  ghost predicate FirstUnparsable(parse: UrlParser, targets: seq<string>, i: int) {
    && 0 <= i < |targets|
    && parse(targets[i]).Err?
    && forall j | 0 <= j < i :: parse(targets[j]).Ok?
  }

  function Targets(options: seq<ClientOption>): (r: seq<string>)
    ensures |r| == |options|
    ensures forall i | 0 <= i < |options| :: r[i] == options[i].target
  {
    seq(|options|, i requires 0 <= i < |options| => options[i].target)
  }

  /** The option loop succeeds exactly when every target parses, and then the base URL is the
      last target's; otherwise its error is that of the first target that does not parse. */
  lemma {:induction false} ClientOptionsOutcome(parse: UrlParser, c: Base.Client, options: seq<ClientOption>)
    ensures var r := ApplyClientOptions(parse, c, options);
            && (r.Ok? <==> forall i | 0 <= i < |options| :: parse(options[i].target).Ok?)
            && (r.Ok? && |options| > 0 ==> r.value.baseUrl == Some(parse(options[|options| - 1].target).value))
            && (r.Err? ==> exists i :: FirstUnparsable(parse, Targets(options), i) && r.error == parse(options[i].target).error)
    decreases |options|
  {
    if |options| > 0 {
      var targets := Targets(options);
      var first := ApplyClientOption(parse, c, options[0]);
      if first.Ok? {
        var rest := options[1..];
        ClientOptionsOutcome(parse, first.value, rest);
        var r := ApplyClientOptions(parse, first.value, rest);
        assert ApplyClientOptions(parse, c, options) == r;
        if r.Err? {
          var i :| FirstUnparsable(parse, Targets(rest), i) && r.error == parse(rest[i].target).error;
          assert FirstUnparsable(parse, targets, i + 1);
        }
        forall i | 0 <= i < |rest| ensures rest[i] == options[i + 1] { }
      } else {
        assert FirstUnparsable(parse, targets, 0);
      }
    }
  }

  /** The package-level client, holding the configured `base.Client`. */
  datatype Client = Client(c: Base.Client)

  /** Why `NewClient` returned no client. A rejected key carries the text of the error, which
      `NewClient` prefixes with "notify: ". */
  datatype ClientError = InvalidKey(reason: KeyError, message: string) | OptionFailed(cause: Base.Error)

  /** `NewClient`: validate the key, keep the service ID (the 36 characters ending 37 before
      the end) and the secret (the last 36), then apply the default base URL and the caller's
      options in order. Any failure leaves no client. */
  function NewClient(apiKey: string, parse: UrlParser, options: seq<ClientOption>): (r: Result<Client, ClientError>)
    ensures |apiKey| == 0 ==> r == Err(InvalidKey(EmptyKey, "notify: api key is empty"))
    ensures 0 < |apiKey| < MinKeyLength ==> r == Err(InvalidKey(KeyTooShort, "notify: api key is too short"))
    ensures r.Ok? ==>
              var n := |apiKey|;
              && n >= MinKeyLength
              && r.value.c.serviceId == apiKey[n - 73..n - 37]
              && r.value.c.apiKey == apiKey[n - 36..]
              && |r.value.c.serviceId| == BlockLength && |r.value.c.apiKey| == BlockLength
              && r.value.c.routeSecret == ""
              && r.value.c.baseUrl.Some?
  {
    match ValidateAPIKey(apiKey)
    case Some(e) =>
      KeyErrorMessages();
      Err(InvalidKey(e, "notify: " + KeyErrorText(e)))
    case None =>
      var initial := Base.Client(None, FromEnd(apiKey, -73, -37), FromEnd(apiKey, -36, 0), "");
      match ApplyClientOption(parse, initial, WithBaseURL(Base.NotifyBaseURL))
      case Err(e) => Err(OptionFailed(e))
      case Ok(c) =>
        match ApplyClientOptions(parse, c, options)
        case Err(e) => Err(OptionFailed(e))
        case Ok(configured) => Ok(Client(configured))
  }

  /** For a valid key, construction succeeds exactly when the default base URL and every
      option's target parse; the base URL is then the last one given; otherwise the error is
      that of the first target, default first, that does not parse. */
  lemma NewClientOutcome(apiKey: string, parse: UrlParser, options: seq<ClientOption>)
    requires |apiKey| >= MinKeyLength
    ensures var r := NewClient(apiKey, parse, options);
            var targets := [Base.NotifyBaseURL] + Targets(options);
            && (r.Ok? <==> forall i | 0 <= i < |targets| :: parse(targets[i]).Ok?)
            && (r.Ok? ==> r.value.c.baseUrl == Some(parse(targets[|targets| - 1]).value))
            && (r.Err? ==> exists i :: FirstUnparsable(parse, targets, i) && r.error == OptionFailed(parse(targets[i]).error))
  {
    var targets := [Base.NotifyBaseURL] + Targets(options);
    var initial := Base.Client(None, FromEnd(apiKey, -73, -37), FromEnd(apiKey, -36, 0), "");
    var first := ApplyClientOption(parse, initial, WithBaseURL(Base.NotifyBaseURL));
    if first.Ok? {
      ClientOptionsOutcome(parse, first.value, options);
      var r := ApplyClientOptions(parse, first.value, options);
      if r.Err? {
        var i :| FirstUnparsable(parse, Targets(options), i) && r.error == parse(options[i].target).error;
        assert FirstUnparsable(parse, targets, i + 1);
      }
    } else {
      assert FirstUnparsable(parse, targets, 0);
    }
  }

  /** Only the service-ID and secret blocks of a key matter: the name prefix and the
      separator never reach the client. */
  lemma OnlyKeyBlocksMatter(k1: string, k2: string, parse: UrlParser, options: seq<ClientOption>)
    requires |k1| >= MinKeyLength && |k2| >= MinKeyLength
    requires k1[|k1| - 73..|k1| - 37] == k2[|k2| - 73..|k2| - 37]
    requires k1[|k1| - 36..] == k2[|k2| - 36..]
    ensures NewClient(k1, parse, options) == NewClient(k2, parse, options)
  {
    assert FromEnd(k1, -73, -37) == FromEnd(k2, -73, -37);
    assert FromEnd(k1, -36, 0) == FromEnd(k2, -36, 0);
  }

  /** The key used by the package's own test, "key_name-95b3b534-…-e8a5f59a-…", yields its
      two UUIDs once the base URLs parse. */
  lemma TestKeyDecomposes(parse: UrlParser, target: string)
    requires parse(Base.NotifyBaseURL).Ok? && parse(target).Ok?
    ensures var key := ComposeKey("key_name-", "95b3b534-bdd6-4f26-ad91-84b4e2301cca", '-',
                                  "e8a5f59a-b445-4dc0-9513-c5831615f937");
            var r := NewClient(key, parse, [WithBaseURL(target)]);
            && r.Ok?
            && r.value.c.serviceId == "95b3b534-bdd6-4f26-ad91-84b4e2301cca"
            && r.value.c.apiKey == "e8a5f59a-b445-4dc0-9513-c5831615f937"
            && r.value.c.baseUrl == Some(parse(target).value)
  {
    var key := ComposeKey("key_name-", "95b3b534-bdd6-4f26-ad91-84b4e2301cca", '-', "e8a5f59a-b445-4dc0-9513-c5831615f937");
    FromEndRecoversBlocks("key_name-", "95b3b534-bdd6-4f26-ad91-84b4e2301cca", '-', "e8a5f59a-b445-4dc0-9513-c5831615f937");
    NewClientOutcome(key, parse, [WithBaseURL(target)]);
  }

  // ---------------------------------------------------------------------------------------
  // Payloads of SendEmail, SendSMS and GenerateTemplatePreview

  /** Every updater was built by this package. */
  predicate AllBuiltIn(us: seq<Updater>) {
    forall i | 0 <= i < |us| :: BuiltIn(us[i])
  }

  /** `UpdatePayload` folded over updaters in order. Built-in updaters leave the payload in
      front untouched and each append their one item, in the order given. */
  function Extend(p: Payload, us: seq<Updater>): (r: Payload)
    ensures AllBuiltIn(us) ==>
              && |r| == |p| + |us|
              && r[..|p|] == p
              && forall i | 0 <= i < |us| :: r[|p| + i] == Contribution(us[i])[0]
    decreases |us|
  {
    if |us| == 0 then p
    else
      var next := UpdatePayload(us[0], p);
      assert BuiltIn(us[0]) ==> next == p + Contribution(us[0]) by {
        if BuiltIn(us[0]) { BuiltInAppends(us[0], p); }
      }
      assert AllBuiltIn(us) ==> AllBuiltIn(us[1..]);
      Extend(next, us[1..])
  }

  /** Extending by `a + b` is extending by `a`, then by `b`. */
  lemma {:induction false} ExtendAppend(p: Payload, a: seq<Updater>, b: seq<Updater>)
    ensures Extend(p, a + b) == Extend(Extend(p, a), b)
    decreases |a|
  {
    if |a| == 0 {
      assert a + b == b;
    } else {
      assert (a + b)[0] == a[0];
      assert (a + b)[1..] == a[1..] + b;
      ExtendAppend(UpdatePayload(a[0], p), a[1..], b);
    }
  }

  /** With built-in updaters, what they append does not depend on the payload in front. */
  lemma BuiltInExtendIsAppend(p: Payload, us: seq<Updater>)
    requires AllBuiltIn(us)
    ensures Extend(p, us) == p + Extend([], us)
  {
    var r := Extend(p, us);
    var s := Extend([], us);
    assert |r| == |p + s|;
    forall i | 0 <= i < |r| ensures r[i] == (p + s)[i] {
      if i < |p| {
        assert r[..|p|][i] == r[i];
      } else {
        assert r[|p| + (i - |p|)] == Contribution(us[i - |p|])[0];
      }
    }
  }

  function EmailUpdaters(options: seq<SendEmailOption>): (r: seq<Updater>)
    ensures |r| == |options|
    ensures forall i | 0 <= i < |options| :: r[i] == options[i].updater
  {
    seq(|options|, i requires 0 <= i < |options| => options[i].updater)
  }

  function SMSUpdaters(options: seq<SendSMSOption>): (r: seq<Updater>)
    ensures |r| == |options|
    ensures forall i | 0 <= i < |options| :: r[i] == options[i].updater
  {
    seq(|options|, i requires 0 <= i < |options| => options[i].updater)
  }

  /** The option loop of `SendEmail`, calling each option's email role in caller order; it
      computes the common fold of `UpdatePayload`. */
  function ApplyEmailOptions(p: Payload, options: seq<SendEmailOption>): (r: Payload)
    ensures r == Extend(p, EmailUpdaters(options))
    decreases |options|
  {
    if |options| == 0 then p
    else
      assert EmailUpdaters(options)[1..] == EmailUpdaters(options[1..]);
      ApplyEmailOptions(UpdateEmailPayload(options[0].updater, p), options[1..])
  }

  /** The option loop of `SendSMS`, calling each option's SMS role in caller order; it
      computes the common fold of `UpdatePayload`. */
  function ApplySMSOptions(p: Payload, options: seq<SendSMSOption>): (r: Payload)
    ensures r == Extend(p, SMSUpdaters(options))
    decreases |options|
  {
    if |options| == 0 then p
    else
      assert SMSUpdaters(options)[1..] == SMSUpdaters(options[1..]);
      ApplySMSOptions(UpdateSMSPayload(options[0].updater, p), options[1..])
  }

  /** Options usable in both roles give the same payload whether passed to `SendSMS` or to
      `SendEmail`. */
  lemma SharedOptionsAreRoleBlind(p: Payload, us: seq<Updater>)
    ensures ApplySMSOptions(p, seq(|us|, i requires 0 <= i < |us| => SMSOption(us[i])))
         == ApplyEmailOptions(p, seq(|us|, i requires 0 <= i < |us| => EmailOption(us[i])))
  {
    var sms := seq(|us|, i requires 0 <= i < |us| => SMSOption(us[i]));
    var email := seq(|us|, i requires 0 <= i < |us| => EmailOption(us[i]));
    assert SMSUpdaters(sms) == us;
    assert EmailUpdaters(email) == us;
  }

  function TemplateItem(id: string): Item {
    Entry("template_id", Str(id))
  }

  /** The payload `SendEmail` encodes: the template ID and the address, then what each
      option adds. With built-in options it is exactly those two items followed by one item
      per option, in caller order. */
  function EmailPayload(id: string, emailAddress: string, options: seq<SendEmailOption>): (r: Payload)
    ensures AllBuiltIn(EmailUpdaters(options)) ==>
              && |r| == 2 + |options|
              && r[0] == TemplateItem(id)
              && r[1] == Entry("email_address", Str(emailAddress))
              && forall i | 0 <= i < |options| :: r[2 + i] == Contribution(options[i].updater)[0]
  {
    var base := [TemplateItem(id), Entry("email_address", Str(emailAddress))];
    var r := ApplyEmailOptions(base, options);
    assert AllBuiltIn(EmailUpdaters(options)) ==> r[..2][0] == r[0] && r[..2][1] == r[1];
    r
  }

  /** The payload `SendSMS` encodes: as for email, with the phone number in second place. */
  function SMSPayload(id: string, phoneNumber: string, options: seq<SendSMSOption>): (r: Payload)
    ensures AllBuiltIn(SMSUpdaters(options)) ==>
              && |r| == 2 + |options|
              && r[0] == TemplateItem(id)
              && r[1] == Entry("phone_number", Str(phoneNumber))
              && forall i | 0 <= i < |options| :: r[2 + i] == Contribution(options[i].updater)[0]
  {
    var base := [TemplateItem(id), Entry("phone_number", Str(phoneNumber))];
    var r := ApplySMSOptions(base, options);
    assert AllBuiltIn(SMSUpdaters(options)) ==> r[..2][0] == r[0] && r[..2][1] == r[1];
    r
  }

  /** Built-in options never write the mandatory fields, so the template ID and the
      recipient a payload starts with are the ones marshalled. */
  lemma {:induction false} MandatoryFieldsSurvive(p: Payload, recipient: string)
    requires |p| >= 2 && p[0].key == "template_id" && p[1].key == recipient
    requires recipient !in BuiltInFields && recipient != "template_id"
    requires forall i | 2 <= i < |p| :: p[i].key in BuiltInFields
    ensures Collapse(p)["template_id"] == p[0].value
    ensures Collapse(p)[recipient] == p[1].value
  {
    CollapseLastWins(p);
    assert IsLast(p, 0);
    assert IsLast(p, 1);
  }

  /** With built-in options only, the marshalled template ID and email address are the
      arguments of `SendEmail`. */
  lemma EmailMandatoryFields(id: string, emailAddress: string, options: seq<SendEmailOption>)
    requires AllBuiltIn(EmailUpdaters(options))
    ensures Collapse(EmailPayload(id, emailAddress, options))["template_id"] == Str(id)
    ensures Collapse(EmailPayload(id, emailAddress, options))["email_address"] == Str(emailAddress)
  {
    var p := EmailPayload(id, emailAddress, options);
    forall i | 2 <= i < |p| ensures p[i].key in BuiltInFields {
      assert p[2 + (i - 2)] == Contribution(options[i - 2].updater)[0];
    }
    MandatoryFieldsSurvive(p, "email_address");
  }

  /** With built-in options only, the marshalled template ID and phone number are the
      arguments of `SendSMS`. */
  lemma SMSMandatoryFields(id: string, phoneNumber: string, options: seq<SendSMSOption>)
    requires AllBuiltIn(SMSUpdaters(options))
    ensures Collapse(SMSPayload(id, phoneNumber, options))["template_id"] == Str(id)
    ensures Collapse(SMSPayload(id, phoneNumber, options))["phone_number"] == Str(phoneNumber)
  {
    var p := SMSPayload(id, phoneNumber, options);
    forall i | 2 <= i < |p| ensures p[i].key in BuiltInFields {
      assert p[2 + (i - 2)] == Contribution(options[i - 2].updater)[0];
    }
    MandatoryFieldsSurvive(p, "phone_number");
  }

  /** Fields accumulate: the marshalled fields of `a + b` are those of `a`, overridden by
      the fields that the built-in options `b` write. */
  lemma EmailFieldsAccumulate(p: Payload, a: seq<SendEmailOption>, b: seq<SendEmailOption>)
    requires AllBuiltIn(EmailUpdaters(b))
    ensures Collapse(ApplyEmailOptions(p, a + b))
         == Collapse(ApplyEmailOptions(p, a)) + Collapse(ApplyEmailOptions([], b))
  {
    assert EmailUpdaters(a + b) == EmailUpdaters(a) + EmailUpdaters(b);
    ExtendAppend(p, EmailUpdaters(a), EmailUpdaters(b));
    BuiltInExtendIsAppend(Extend(p, EmailUpdaters(a)), EmailUpdaters(b));
    CollapseAppend(Extend(p, EmailUpdaters(a)), Extend([], EmailUpdaters(b)));
  }

  /** The loop of `GenerateTemplatePreview`: each personalisation list appends one
      "personalisation" item, in order. */
  function ApplyPersonalisations(p: Payload, lists: seq<Pairs>): (r: Payload)
    ensures |r| == |p| + |lists|
    ensures r[..|p|] == p
    ensures forall i | 0 <= i < |lists| :: r[|p| + i] == Entry("personalisation", Dict(Collapse(lists[i])))
    decreases |lists|
  {
    if |lists| == 0 then p
    else
      var next := UpdatePayload(Personalisation(lists[0]), p);
      var r := ApplyPersonalisations(next, lists[1..]);
      assert r[..|p|] == r[..|next|][..|p|];
      r
  }

  /** The payload `GenerateTemplatePreview` encodes: starts empty, holds only
      personalisation items. */
  function PreviewPayload(lists: seq<Pairs>): (r: Payload)
    ensures |r| == |lists|
    ensures forall i | 0 <= i < |r| :: r[i] == Entry("personalisation", Dict(Collapse(lists[i])))
  {
    ApplyPersonalisations([], lists)
  }

  /** A preview marshals to at most the "personalisation" field, and when several lists are
      given only the last one is sent. */
  lemma PreviewSendsLastPersonalisation(lists: seq<Pairs>)
    ensures |lists| == 0 ==> Collapse(PreviewPayload(lists)) == map[]
    ensures |lists| > 0 ==>
              Collapse(PreviewPayload(lists)) == map["personalisation" := Dict(Collapse(lists[|lists| - 1]))]
  {
    var p := PreviewPayload(lists);
    if |lists| > 0 {
      SingleKeyCollapse(p, "personalisation");
    }
  }

  /** A payload whose items all share one field collapses to that field and the last value. */
  lemma {:induction false} SingleKeyCollapse(p: Payload, field: string)
    requires |p| > 0
    requires forall i | 0 <= i < |p| :: p[i].key == field
    ensures Collapse(p) == map[field := p[|p| - 1].value]
    decreases |p|
  {
    var init := p[..|p| - 1];
    if |init| > 0 {
      SingleKeyCollapse(init, field);
    }
  }

  /** When no field repeats, every item's value is marshalled as it is. */
  lemma DistinctFieldsMarshal(p: Payload)
    requires forall i, j | 0 <= i < j < |p| :: p[i].key != p[j].key
    ensures forall i | 0 <= i < |p| :: MarshalJSON(p).fields[p[i].key] == ValueJson(p[i].value)
  {
    assert forall i | 0 <= i < |p| :: IsLast(p, i);
  }

  lemma KeysOfFive<V>(a: Entry<V>, b: Entry<V>, c: Entry<V>, d: Entry<V>, e: Entry<V>)
    ensures KeysOf([a, b, c, d, e]) == {a.key, b.key, c.key, d.key, e.key}
  {
    assert [a][..0] == [];
    assert KeysOf([a]) == {a.key};
    assert [a, b][..1] == [a];
    assert KeysOf([a, b]) == {a.key, b.key};
    assert [a, b, c][..2] == [a, b];
    assert KeysOf([a, b, c]) == {a.key, b.key, c.key};
    assert [a, b, c, d][..3] == [a, b, c];
    assert KeysOf([a, b, c, d]) == {a.key, b.key, c.key, d.key};
    assert [a, b, c, d, e][..4] == [a, b, c, d];
  }

  /** The options of the package's own email test. */
  function ClientTestOptions(): seq<SendEmailOption> {
    [ EmailOption(Reference("your-local-identifier")),
      EmailReplyToID("ef661d9d-17bc-4fc2-ae12-1d3e00ae202e"),
      EmailOption(Personalisation([Entry("user_name", "Sam"), Entry("amount_owing", "$205.20")])) ]
  }

  function ClientTestPairs(): Pairs {
    [Entry("user_name", "Sam"), Entry("amount_owing", "$205.20")]
  }

  /** The five items the package's own email test sends, in order. */
  function ClientTestItems(): Payload {
    [ TemplateItem("83f8a64f-74ec-4d90-ae48-394a8af3fe7c"),
      Entry("email_address", Str("someone@example.com")),
      Entry("reference", Str("your-local-identifier")),
      Entry("email_reply_to_id", Str("ef661d9d-17bc-4fc2-ae12-1d3e00ae202e")),
      Entry("personalisation", Dict(Collapse(ClientTestPairs()))) ]
  }

  /** The payload of the package's own email test, item by item. */
  lemma ClientTestPayload()
    ensures EmailPayload("83f8a64f-74ec-4d90-ae48-394a8af3fe7c", "someone@example.com", ClientTestOptions())
         == ClientTestItems()
  {
    var options := ClientTestOptions();
    assert options[0].updater == Reference("your-local-identifier");
    assert options[2].updater == Personalisation(ClientTestPairs());
    assert AllBuiltIn(EmailUpdaters(options));
  }

  /** The marshalled test items: five fields, each with its item's value. */
  lemma ClientTestItemsMarshal()
    ensures var body := MarshalJSON(ClientTestItems());
            && body.fields.Keys == {"template_id", "email_address", "reference", "email_reply_to_id", "personalisation"}
            && body.fields["template_id"] == JsonDoc.JString("83f8a64f-74ec-4d90-ae48-394a8af3fe7c")
            && body.fields["email_address"] == JsonDoc.JString("someone@example.com")
            && body.fields["reference"] == JsonDoc.JString("your-local-identifier")
            && body.fields["email_reply_to_id"] == JsonDoc.JString("ef661d9d-17bc-4fc2-ae12-1d3e00ae202e")
            && body.fields["personalisation"].fields["user_name"] == JsonDoc.JString("Sam")
  {
    var pairs := ClientTestPairs();
    var p := ClientTestItems();
    KeysOfFive(p[0], p[1], p[2], p[3], p[4]);
    assert p == [p[0], p[1], p[2], p[3], p[4]];
    DistinctFieldsMarshal(p);
    CollapseLastWins(pairs);
    assert IsLast(pairs, 0);
  }

  /** The email send of the package's own test: reference, reply-to ID and personalisation
      options produce a body with all five top-level fields and the supplied values. */
  lemma ClientTestEmailBody()
    ensures var body := MarshalJSON(EmailPayload("83f8a64f-74ec-4d90-ae48-394a8af3fe7c", "someone@example.com", ClientTestOptions()));
            && body.fields.Keys == {"template_id", "email_address", "reference", "email_reply_to_id", "personalisation"}
            && body.fields["template_id"] == JsonDoc.JString("83f8a64f-74ec-4d90-ae48-394a8af3fe7c")
            && body.fields["email_address"] == JsonDoc.JString("someone@example.com")
            && body.fields["reference"] == JsonDoc.JString("your-local-identifier")
            && body.fields["email_reply_to_id"] == JsonDoc.JString("ef661d9d-17bc-4fc2-ae12-1d3e00ae202e")
            && body.fields["personalisation"].fields["user_name"] == JsonDoc.JString("Sam")
  {
    ClientTestPayload();
    ClientTestItemsMarshal();
  }
}

=== FILE: jsondoc.dfy ===
/** The part of Go's `encoding/json` that the client relies on, over an abstract document
    tree instead of bytes. */
module JsonDoc {
  import opened Results

  /** A parsed JSON value. Numbers are integers: the client decodes none other. */
  datatype Json =
    | JNull
    | JBool(b: bool)
    | JNumber(n: int)
    | JString(s: string)
    | JArray(items: seq<Json>)
    | JObject(fields: map<string, Json>)

  /** A byte buffer seen through the parser: empty, not a JSON document, or one document.
      A `json.RawMessage` for a missing field is the empty buffer. */
  datatype Raw = Absent | Malformed | Doc(json: Json)

  /** Why `json.Unmarshal` failed. */
  datatype DecodeFailure =
    | UnexpectedEnd                              // "unexpected end of JSON input"
    | Syntax                                     // the buffer is not a JSON document
    | TypeMismatch(value: string, goType: string)  // "cannot unmarshal <value> into Go value of type <goType>"

  /** The word Go's type-mismatch errors use for a value. */
  function KindOf(j: Json): string {
    match j
    case JNull => "null"
    case JBool(_) => "bool"
    case JNumber(_) => "number"
    case JString(_) => "string"
    case JArray(_) => "array"
    case JObject(_) => "object"
  }

  const RawObjectType := "map[string]json.RawMessage"

  /** The first step of every `json.Unmarshal`: read exactly one document. */
  function Parse(raw: Raw): (r: Result<Json, DecodeFailure>)
    ensures r.Ok? <==> raw.Doc?
    ensures raw == Absent ==> r == Err(UnexpectedEnd)
  {
    match raw
    case Absent => Err(UnexpectedEnd)
    case Malformed => Err(Syntax)
    case Doc(j) => Ok(j)
  }

  /** `json.Unmarshal(data, v)` for a target whose decoding of a parsed value is `target`. */
  function Unmarshal<T>(raw: Raw, target: Json -> Result<T, DecodeFailure>): (r: Result<T, DecodeFailure>)
    ensures raw == Absent ==> r == Err(UnexpectedEnd)
    ensures raw == Malformed ==> r == Err(Syntax)
    ensures raw.Doc? ==> r == target(raw.json)
  {
    var j :- Parse(raw);
    target(j)
  }

  /** `json.Unmarshal(data, &nested)` with `nested` a `map[string]json.RawMessage`: an object
      gives its members, `null` leaves the map nil (no members), anything else is refused. */
  function Members(raw: Raw): (r: Result<map<string, Raw>, DecodeFailure>)
    ensures r.Ok? <==> raw.Doc? && (raw.json.JObject? || raw.json.JNull?)
    ensures r.Ok? && raw.json.JObject? ==>
              r.value.Keys == raw.json.fields.Keys
              && forall f | f in r.value :: r.value[f] == Doc(raw.json.fields[f])
    ensures r.Ok? && raw.json.JNull? ==> r.value == map[]
    ensures raw.Doc? && !raw.json.JObject? && !raw.json.JNull? ==>
              r == Err(TypeMismatch(KindOf(raw.json), RawObjectType))
  {
    var j :- Parse(raw);
    match j
    case JObject(fs) => Ok(map f | f in fs :: Doc(fs[f]))
    case JNull => Ok(map[])
    case _ => Err(TypeMismatch(KindOf(j), RawObjectType))
  }

  /** `nested[field]`: a missing member reads as the empty buffer. */
  function Member(nested: map<string, Raw>, field: string): Raw {
    if field in nested then nested[field] else Absent
  }

  /** The loop of `Response.JSON`: descend into one member per field name, in order. */
  function Descend(raw: Raw, at: seq<string>): (r: Result<Raw, DecodeFailure>)
    ensures |at| == 0 ==> r == Ok(raw)
    ensures |at| > 0 && raw.Doc? && !raw.json.JObject? && !raw.json.JNull? ==>
              r == Err(TypeMismatch(KindOf(raw.json), RawObjectType))
    ensures |at| > 0 && r.Ok? && r.value != Absent ==>
              raw.Doc? && raw.json.JObject? && at[0] in raw.json.fields
    decreases |at|
  {
    if |at| == 0 then Ok(raw)
    else
      var nested :- Members(raw);
      Descend(Member(nested, at[0]), at[1..])
  }

  /** The document that holds `j` under the member path `at`: `{at[0]: {at[1]: … j}}`. */
  function Nest(at: seq<string>, j: Json): Json
    decreases |at|
  {
    if |at| == 0 then j else JObject(map[at[0] := Nest(at[1..], j)])
  }

  /** Descending along a path finds what was nested along that path. */
  lemma {:induction false} DescendNest(at: seq<string>, j: Json)
    ensures Descend(Doc(Nest(at, j)), at) == Ok(Doc(j))
    decreases |at|
  {
    if |at| > 0 {
      var nested := Members(Doc(Nest(at, j)));
      assert nested.Ok? && Member(nested.value, at[0]) == Doc(Nest(at[1..], j));
      DescendNest(at[1..], j);
    }
  }

  /** The value found by following the member names `at` from `j`: every level on the way
      must be an object holding the next name. */
  function Lookup(j: Json, at: seq<string>): (r: Option<Json>)
    ensures |at| == 0 ==> r == Some(j)
    ensures |at| > 0 && r.Some? ==> j.JObject? && at[0] in j.fields
    decreases |at|
  {
    if |at| == 0 then Some(j)
    else if j.JObject? && at[0] in j.fields then Lookup(j.fields[at[0]], at[1..])
    else None
  }

  /** A path that leads somewhere within one level's member. */
  lemma LookupStep(j: Json, at: seq<string>, k: nat)
    requires 0 < k <= |at| && j.JObject? && at[0] in j.fields
    ensures Lookup(j, at[..k]) == Lookup(j.fields[at[0]], at[1..][..k - 1])
  {
    assert at[..k][0] == at[0];
    assert at[..k][1..] == at[1..][..k - 1];
  }

  /** Whenever the path exists, descending along it reaches the value at its end, whatever
      else each level holds. */
  lemma {:induction false} DescendLookup(j: Json, at: seq<string>)
    ensures Lookup(j, at).Some? ==> Descend(Doc(j), at) == Ok(Doc(Lookup(j, at).value))
    decreases |at|
  {
    if |at| > 0 && Lookup(j, at).Some? {
      var nested := Members(Doc(j));
      assert nested.Ok? && Member(nested.value, at[0]) == Doc(j.fields[at[0]]);
      DescendLookup(j.fields[at[0]], at[1..]);
    }
  }

  /** When the path reaches a value at level `k` that is neither an object nor `null`,
      descending fails there with a type mismatch, at any depth. */
  lemma {:induction false} DescendMismatch(j: Json, at: seq<string>, k: nat)
    requires k < |at|
    requires Lookup(j, at[..k]).Some?
    requires var x := Lookup(j, at[..k]).value; !x.JObject? && !x.JNull?
    ensures Descend(Doc(j), at) == Err(TypeMismatch(KindOf(Lookup(j, at[..k]).value), RawObjectType))
    decreases k
  {
    if k == 0 {
      assert at[..0] == [];
    } else {
      LookupStep(j, at, k);
      var nested := Members(Doc(j));
      assert nested.Ok? && Member(nested.value, at[0]) == Doc(j.fields[at[0]]);
      DescendMismatch(j.fields[at[0]], at[1..], k - 1);
    }
  }

  /** When the path reaches `null`, or an object without the next name, at level `k`, the
      descent ends in the empty buffer; a further level then fails as "unexpected end". */
  lemma {:induction false} DescendMissing(j: Json, at: seq<string>, k: nat)
    requires k < |at|
    requires Lookup(j, at[..k]).Some?
    requires var x := Lookup(j, at[..k]).value; x.JNull? || (x.JObject? && at[k] !in x.fields)
    ensures k == |at| - 1 ==> Descend(Doc(j), at) == Ok(Absent)
    ensures k < |at| - 1 ==> Descend(Doc(j), at) == Err(UnexpectedEnd)
    decreases k
  {
    if k == 0 {
      assert at[..0] == [];
      var nested := Members(Doc(j));
      assert nested.Ok? && Member(nested.value, at[0]) == Absent;
      assert Descend(Doc(j), at) == Descend(Absent, at[1..]);
    } else {
      LookupStep(j, at, k);
      var nested := Members(Doc(j));
      assert nested.Ok? && Member(nested.value, at[0]) == Doc(j.fields[at[0]]);
      DescendMissing(j.fields[at[0]], at[1..], k - 1);
    }
  }

  /** A path that does not exist breaks off at some level `k`: the value reached there is
      not an object, or is an object without the next name. */
  lemma {:induction false} LookupFailsAt(j: Json, at: seq<string>) returns (k: nat)
    requires Lookup(j, at).None?
    ensures k < |at| && Lookup(j, at[..k]).Some?
    ensures var x := Lookup(j, at[..k]).value; !x.JObject? || at[k] !in x.fields
    decreases |at|
  {
    assert at[..0] == [];
    if j.JObject? && at[0] in j.fields {
      var k' := LookupFailsAt(j.fields[at[0]], at[1..]);
      k := k' + 1;
      LookupStep(j, at, k);
      assert at[1..][k'] == at[k];
    } else {
      k := 0;
    }
  }
}

=== FILE: lastwins.dfy ===
/** Folding a sequence of keyed entries into a Go map, one assignment per entry.
    Both `Payload.MarshalJSON` and `Personalisation.UpdatePayload` do exactly this, so a
    key written twice keeps the value of its last entry. */
module LastWins {

  /** A `(key, value)` pair: a `PayloadItem` or one personalisation `{Key, Value}`. */
  datatype Entry<V> = Entry(key: string, value: V)

  /** The keys that occur in `es`. */
  function KeysOf<V>(es: seq<Entry<V>>): (r: set<string>)
    ensures forall i | 0 <= i < |es| :: es[i].key in r
    decreases |es|
  {
    if |es| == 0 then {} else KeysOf(es[..|es| - 1]) + {es[|es| - 1].key}
  }

  /** `KeysOf` holds exactly the keys of the entries. */
  lemma {:induction false} KeysOfMembership<V>(es: seq<Entry<V>>, k: string)
    ensures k in KeysOf(es) <==> exists i | 0 <= i < |es| :: es[i].key == k
    decreases |es|
  {
    if |es| > 0 {
      var n := |es| - 1;
      KeysOfMembership(es[..n], k);
      if k in KeysOf(es[..n]) {
        var i :| 0 <= i < n && es[..n][i].key == k;
        assert es[i].key == k;
      }
    }
  }

  /** No later entry of `es` has the key of `es[i]`. */
  ghost predicate IsLast<V>(es: seq<Entry<V>>, i: int)
    requires 0 <= i < |es|
  {
    forall j | i < j < |es| :: es[j].key != es[i].key
  }

  /** `dict[e.key] = e.value` for each entry in order, starting from an empty map. */
  function Collapse<V>(es: seq<Entry<V>>): (m: map<string, V>)
    ensures m.Keys == KeysOf(es)
    decreases |es|
  {
    if |es| == 0 then map[]
    else Collapse(es[..|es| - 1])[es[|es| - 1].key := es[|es| - 1].value]
  }

  /** Last write wins: the collapsed map holds, for every key, the value of the last entry
      with that key. */
  lemma {:induction false} CollapseLastWins<V>(es: seq<Entry<V>>)
    ensures forall i | 0 <= i < |es| && IsLast(es, i) :: Collapse(es)[es[i].key] == es[i].value
    decreases |es|
  {
    if |es| > 0 {
      var init := es[..|es| - 1];
      var e := es[|es| - 1];
      assert es == init + [e];
      LastInPrefix(init, e);
      CollapseLastWins(init);
    }
  }

  /** An entry that is last in `es + [e]` is last in `es` and has a key other than `e`'s. */
  lemma LastInPrefix<V>(es: seq<Entry<V>>, e: Entry<V>)
    ensures forall i | 0 <= i < |es| && IsLast(es + [e], i) :: IsLast(es, i) && es[i].key != e.key
  {
    var s := es + [e];
    forall i | 0 <= i < |es| && IsLast(s, i) ensures IsLast(es, i) && es[i].key != e.key {
      assert s[i] == es[i];
      assert s[|es|] == e;
      forall j | i < j < |es| ensures es[j].key != es[i].key {
        assert s[j] == es[j];
      }
    }
  }

  /** Every key of the collapsed map has a last entry, and the map holds that entry's value:
      the converse of the ensures of `Collapse`. */
  lemma {:induction false} CollapseHasLastEntry<V>(es: seq<Entry<V>>, k: string)
    requires k in Collapse(es)
    ensures exists i | 0 <= i < |es| :: es[i].key == k && IsLast(es, i) && Collapse(es)[k] == es[i].value
    decreases |es|
  {
    var n := |es| - 1;
    var init := es[..n];
    assert Collapse(es) == Collapse(init)[es[n].key := es[n].value];
    if es[n].key == k {
      assert IsLast(es, n);
    } else {
      CollapseHasLastEntry(init, k);
      var i :| 0 <= i < |init| && init[i].key == k && IsLast(init, i) && Collapse(init)[k] == init[i].value;
      assert es[i] == init[i];
      assert IsLast(es, i);
    }
  }

  /** Collapsing a concatenation is the right-biased union: entries appended later override
      earlier keys and leave every other key alone. */
  lemma {:induction false} CollapseAppend<V>(a: seq<Entry<V>>, b: seq<Entry<V>>)
    ensures Collapse(a + b) == Collapse(a) + Collapse(b)
    decreases |b|
  {
    if |b| == 0 {
      assert a + b == a;
    } else {
      var n := |b| - 1;
      var e := b[n];
      var ab := a + b;
      assert ab[..|ab| - 1] == a + b[..n];
      assert ab[|ab| - 1] == e;
      assert Collapse(ab) == Collapse(a + b[..n])[e.key := e.value];
      assert Collapse(b) == Collapse(b[..n])[e.key := e.value];
      CollapseAppend(a, b[..n]);
    }
  }
}

=== FILE: notifyapi.dfy ===
/** The public error type of the `notifyapi` package (notifyapi/notifyapi.go). It renders
    its message exactly as `base.APIError` does. */
module NotifyApi {
  import Text
  import Base

  /** One `{error, message}` entry; `kind` is the JSON "error" member. */
  datatype ErrorItem = ErrorItem(kind: string, message: string)

  /** An error response: the HTTP status code, the response header fields, and the items. */
  datatype Error = Error(code: int, header: map<string, seq<string>>, errors: seq<ErrorItem>)

  /** The same items as `base.Error` values. */
  function AsBaseItems(items: seq<ErrorItem>): (r: seq<Base.ErrorItem>)
    ensures |r| == |items|
    ensures forall i | 0 <= i < |items| :: r[i] == Base.ErrorItem(items[i].kind, items[i].message)
  {
    seq(|items|, i requires 0 <= i < |items| => Base.ErrorItem(items[i].kind, items[i].message))
  }

  /** `Error.Error()`: the item messages in order, separated by ", " — the text an
      `APIError` with the same items renders, whatever its status code. */
  function ErrorMessage(e: Error): (r: string)
    ensures forall code: Base.Int64 :: r == Base.APIErrorMessage(Base.APIError(AsBaseItems(e.errors), code))
    ensures |e.errors| == 0 ==> r == ""
    ensures |e.errors| == 1 ==> r == e.errors[0].message
  {
    var parts := seq(|e.errors|, i requires 0 <= i < |e.errors| => e.errors[i].message);
    assert parts == Base.Messages(AsBaseItems(e.errors));
    Text.Join(parts, ", ")
  }

  /** The status code and the header fields never change the message. */
  lemma ErrorMessageIgnoresCodeAndHeader(e: Error, code: int, header: map<string, seq<string>>)
    ensures ErrorMessage(e.(code := code, header := header)) == ErrorMessage(e)
  {
  }

  /** Only the `Message` fields reach the message: two errors whose items carry the same
      messages render alike, whatever their kinds. */
  lemma ErrorMessageIgnoresKinds(e1: Error, e2: Error)
    requires |e1.errors| == |e2.errors|
    requires forall i | 0 <= i < |e1.errors| :: e1.errors[i].message == e2.errors[i].message
    ensures ErrorMessage(e1) == ErrorMessage(e2)
  {
    var b1 := Base.APIError(AsBaseItems(e1.errors), 0);
    var b2 := Base.APIError(AsBaseItems(e2.errors), 0);
    assert Base.Messages(b1.errors) == Base.Messages(b2.errors);
    Base.APIErrorMessageUsesMessagesOnly(b1, b2);
  }

  /** Two items give their messages joined by ", " and nothing of their kinds. */
  lemma TwoItemMessage(code: int, header: map<string, seq<string>>)
    ensures ErrorMessage(Error(code, header,
              [ErrorItem("ValidationError", "bad template"), ErrorItem("AuthError", "bad token")]))
            == "bad template, bad token"
  {
    var e := Error(code, header, [ErrorItem("ValidationError", "bad template"), ErrorItem("AuthError", "bad token")]);
    assert Base.Messages(AsBaseItems(e.errors)) == ["bad template", "bad token"];
  }
}

=== FILE: options.dfy ===
/** Request payloads and the options that extend them (options.go). A payload is a list of
    `(field, value)` items; options only append to it, and marshalling collapses it into one
    JSON object in which the last item for a field wins. */
module Options {
  import opened Results
  import opened LastWins
  import opened JsonDoc

  /** The value of a payload item: a string, or the personalisation dictionary. */
  datatype Value = Str(s: string) | Dict(d: map<string, string>)

  /** `PayloadItem{field, message}`. */
  type Item = Entry<Value>

  type Payload = seq<Item>

  /** The `{Key, Value}` list of a `Personalisation`. */
  type Pairs = seq<Entry<string>>

  /** The function inside an `UpdatePayloadFunc`. The closures that `Reference`,
      `EmailReplyToID` and `SMSSenderID` build each append one captured item; any other
      function is one written by a caller. */
  datatype PayloadFunc = Appender(item: Item) | UserFunc(f: Payload -> Payload)

  /** Calling the function of an `UpdatePayloadFunc`: a built-in closure keeps the payload
      and appends its one item; a caller's function may return anything. */
  function Call(fn: PayloadFunc, p: Payload): (r: Payload)
    ensures fn.Appender? ==> |r| == |p| + 1 && r[..|p|] == p && r[|p|] == fn.item
    ensures fn.UserFunc? ==> r == fn.f(p)
  {
    match fn
    case Appender(item) => p + [item]
    case UserFunc(f) => f(p)
  }

  /** The three types that implement `PayloadUpdater`. */
  datatype Updater =
    | Personalisation(pairs: Pairs)
    | UpdatePayloadFunc(fn: PayloadFunc)
    | CommonOption(inner: Updater)

  /** The updater that finally does the work: `CommonOption` wrappers, however deeply
      nested, removed. */
  function Core(u: Updater): (r: Updater)
    ensures !r.CommonOption?
    ensures !u.CommonOption? ==> r == u
    decreases u
  {
    if u.CommonOption? then Core(u.inner) else u
  }

  /** `UpdatePayload`; a `CommonOption` forwards to the updater it embeds. Whatever the
      nesting, the updater at its core decides: a personalisation appends one
      "personalisation" item holding the collapsed pairs, a built-in closure appends its
      item, and a caller's function returns what it returns. */
  function UpdatePayload(u: Updater, p: Payload): (r: Payload)
    ensures Core(u).Personalisation? ==>
              && |r| == |p| + 1 && r[..|p|] == p
              && r[|p|] == Entry("personalisation", Dict(Collapse(Core(u).pairs)))
    ensures Core(u).UpdatePayloadFunc? && Core(u).fn.Appender? ==>
              |r| == |p| + 1 && r[..|p|] == p && r[|p|] == Core(u).fn.item
    ensures Core(u).UpdatePayloadFunc? && Core(u).fn.UserFunc? ==> r == Core(u).fn.f(p)
    decreases u
  {
    match u
    case Personalisation(pairs) => p + [Entry("personalisation", Dict(Collapse(pairs)))]
    case UpdatePayloadFunc(fn) => Call(fn, p)
    case CommonOption(inner) => UpdatePayload(inner, p)
  }

  /** `UpdateSMSPayload`: every implementation sends the SMS role to its `UpdatePayload`. */
  function UpdateSMSPayload(u: Updater, p: Payload): (r: Payload)
    ensures r == UpdatePayload(u, p)
  {
    match u
    case Personalisation(_) => UpdatePayload(u, p)
    case UpdatePayloadFunc(fn) => Call(fn, p)
    case CommonOption(inner) => UpdatePayload(inner, p)
  }

  /** `UpdateEmailPayload`: every implementation sends the email role to its `UpdatePayload`. */
  function UpdateEmailPayload(u: Updater, p: Payload): (r: Payload)
    ensures r == UpdatePayload(u, p)
  {
    match u
    case Personalisation(_) => UpdatePayload(u, p)
    case UpdatePayloadFunc(fn) => Call(fn, p)
    case CommonOption(inner) => UpdatePayload(inner, p)
  }

  /** A value whose static type is `SendSMSOption`. A `CommonOption`, an `UpdatePayloadFunc`
      and a `Personalisation` all convert to it; `EmailReplyToID` never returns one. */
  datatype SendSMSOption = SMSOption(updater: Updater)

  /** A value whose static type is `SendEmailOption`; `SMSSenderID` never returns one. */
  datatype SendEmailOption = EmailOption(updater: Updater)

  /** `Reference(id)`: a common option that appends the reference and nothing else. */
  function Reference(referenceId: string): (r: Updater)
    ensures r.CommonOption?
    ensures forall p :: UpdatePayload(r, p) == p + [Entry("reference", Str(referenceId))]
  {
    CommonOption(UpdatePayloadFunc(Appender(Entry("reference", Str(referenceId)))))
  }

  /** `EmailReplyToID(address)`: an email-only option appending the reply-to id. */
  function EmailReplyToID(address: string): (r: SendEmailOption)
    ensures forall p :: UpdateEmailPayload(r.updater, p) == p + [Entry("email_reply_to_id", Str(address))]
  {
    EmailOption(UpdatePayloadFunc(Appender(Entry("email_reply_to_id", Str(address)))))
  }

  /** `SMSSenderID(senderId)`: an SMS-only option appending the sender id. */
  function SMSSenderID(senderId: string): (r: SendSMSOption)
    ensures forall p :: UpdateSMSPayload(r.updater, p) == p + [Entry("sms_sender_id", Str(senderId))]
  {
    SMSOption(UpdatePayloadFunc(Appender(Entry("sms_sender_id", Str(senderId)))))
  }

  /** `Personalisation.UpdatePayload` appends exactly one "personalisation" item after the
      untouched payload; its dictionary has exactly the listed keys, each with the value of
      its last occurrence. */
  lemma PersonalisationAppendsOneItem(pairs: Pairs, p: Payload)
    ensures var r := UpdatePayload(Personalisation(pairs), p);
            && |r| == |p| + 1
            && r[..|p|] == p
            && r[|p|].key == "personalisation"
            && r[|p|].value.Dict?
            && r[|p|].value.d.Keys == KeysOf(pairs)
            && forall i | 0 <= i < |pairs| && IsLast(pairs, i) :: r[|p|].value.d[pairs[i].key] == pairs[i].value
  {
    CollapseLastWins(pairs);
  }

  /** A key listed twice keeps its later value. */
  lemma DuplicatePersonalisationKeepsLast(p: Payload)
    ensures UpdatePayload(Personalisation([Entry("name", "A"), Entry("name", "B")]), p)
            == p + [Entry("personalisation", Dict(map["name" := "B"]))]
  {
    var pairs := [Entry("name", "A"), Entry("name", "B")];
    assert pairs[..1] == [Entry("name", "A")];
    assert Collapse(pairs) == Collapse(pairs[..1])["name" := "B"];
    assert Collapse(pairs[..1]) == map["name" := "A"] by {
      assert pairs[..1][..0] == [];
    }
    assert map["name" := "A"]["name" := "B"] == map["name" := "B"];
    assert Collapse(pairs) == map["name" := "B"];
  }

  // ---------------------------------------------------------------------------------------
  // The options this package builds

  /** The fields the package's own options write. */
  const BuiltInFields: set<string> := {"personalisation", "reference", "email_reply_to_id", "sms_sender_id"}

  /** `u` was built by this package (`Personalisation`, `Reference`, `EmailReplyToID`,
      `SMSSenderID`), possibly wrapped in `CommonOption`, and holds no caller-written function. */
  predicate BuiltIn(u: Updater)
    decreases u
  {
    match u
    case Personalisation(_) => true
    case UpdatePayloadFunc(fn) => fn.Appender? && fn.item.key in BuiltInFields - {"personalisation"} && fn.item.value.Str?
    case CommonOption(inner) => BuiltIn(inner)
  }

  /** The items a built-in option appends. */
  function Contribution(u: Updater): (r: seq<Item>)
    requires BuiltIn(u)
    ensures |r| == 1 && r[0].key in BuiltInFields
    decreases u
  {
    match u
    case Personalisation(pairs) => [Entry("personalisation", Dict(Collapse(pairs)))]
    case UpdatePayloadFunc(fn) => [fn.item]
    case CommonOption(inner) => Contribution(inner)
  }

  /** A built-in option appends its contribution and leaves the payload before it alone. */
  lemma {:induction false} BuiltInAppends(u: Updater, p: Payload)
    requires BuiltIn(u)
    ensures UpdatePayload(u, p) == p + Contribution(u)
    decreases u
  {
    if u.CommonOption? {
      BuiltInAppends(u.inner, p);
    }
  }

  // ---------------------------------------------------------------------------------------
  // Marshalling

  function ValueJson(v: Value): Json {
    match v
    case Str(s) => JString(s)
    case Dict(d) => JObject(map k | k in d :: JString(d[k]))
  }

  /** `Payload.MarshalJSON`: fill a map item by item, then encode it as one JSON object. */
  function MarshalJSON(p: Payload): (r: Json)
    ensures r.JObject?
    ensures r.fields.Keys == KeysOf(p)
    ensures forall i | 0 <= i < |p| && IsLast(p, i) :: r.fields[p[i].key] == ValueJson(p[i].value)
  {
    var dict := Collapse(p);
    CollapseLastWins(p);
    JObject(map f | f in dict :: ValueJson(dict[f]))
  }

  /** Reads a payload value back: a string, or an object of strings. */
  function ValueOf(j: Json): Option<Value> {
    match j
    case JString(s) => Some(Str(s))
    case JObject(fs) =>
      if forall k | k in fs :: fs[k].JString? then Some(Dict(map k | k in fs :: fs[k].s)) else None
    case _ => None
  }

  /** Reads a marshalled payload back as the field map. */
  function PayloadOf(j: Json): Option<map<string, Value>> {
    match j
    case JObject(fs) =>
      if forall k | k in fs :: ValueOf(fs[k]).Some? then Some(map k | k in fs :: ValueOf(fs[k]).value) else None
    case _ => None
  }

  lemma ValueRoundTrip(v: Value)
    ensures ValueOf(ValueJson(v)) == Some(v)
  {
    if v.Dict? {
      var fs := map k | k in v.d :: JString(v.d[k]);
      assert (map k | k in fs :: fs[k].s) == v.d;
    }
  }

  /** Reading the marshalled object back gives the collapsed field map: marshalling keeps
      every field the payload writes, with its last value, and nothing else. */
  lemma MarshalRoundTrip(p: Payload)
    ensures PayloadOf(MarshalJSON(p)) == Some(Collapse(p))
  {
    var dict := Collapse(p);
    var fs := MarshalJSON(p).fields;
    forall k | k in fs ensures ValueOf(fs[k]) == Some(dict[k]) {
      ValueRoundTrip(dict[k]);
    }
    assert (map k | k in fs :: ValueOf(fs[k]).value) == dict;
  }
}

=== FILE: results.dfy ===
/** Failure-carrying wrappers shared by every module of the model:
    `Option` for Go's nil-able values and `Result` for Go's `(value, error)` pairs. */
module Results {

  datatype Option<+T> = None | Some(value: T)

  /** A Go `(value, error)` pair where exactly one side is meaningful. */
  datatype Result<+T, +E> = Ok(value: T) | Err(error: E) {

    predicate IsFailure() {
      Err?
    }

    function PropagateFailure<U>(): Result<U, E>
      requires Err?
    {
      Err(error)
    }

    function Extract(): T
      requires Ok?
    {
      value
    }
  }
}

=== FILE: text.dfy ===
/** Go's `strings.Join`, the only string operation the error types use. */
module Text {

  /** The parts in order with `sep` between each neighbouring pair; no parts give "". */
  function Join(parts: seq<string>, sep: string): (r: string)
    ensures |parts| == 0 ==> r == ""
    ensures |parts| == 1 ==> r == parts[0]
    decreases |parts|
  {
    if |parts| == 0 then ""
    else if |parts| == 1 then parts[0]
    else parts[0] + sep + Join(parts[1..], sep)
  }

  /** Index in `Join(parts, sep)` at which `parts[i]` begins. */
  function Offset(parts: seq<string>, sep: string, i: nat): nat
    requires i < |parts|
    decreases i
  {
    if i == 0 then 0 else |parts[0]| + |sep| + Offset(parts[1..], sep, i - 1)
  }

  /** `s[k..k+|x|]` is `x`. */
  ghost predicate Occurs(s: string, x: string, k: nat) {
    k + |x| <= |s| && s[k..k + |x|] == x
  }

  /** `s` lays out `parts` with `sep` between neighbours: each part at its offset, a
      separator after each part but the last, and nothing after the last part. This fixes
      every character of `s`. */
  ghost predicate LaidOut(s: string, parts: seq<string>, sep: string)
    requires |parts| > 0
  {
    && (forall i {:trigger Offset(parts, sep, i)} | 0 <= i < |parts| :: Occurs(s, parts[i], Offset(parts, sep, i)))
    && (forall i {:trigger Offset(parts, sep, i)} | 0 <= i < |parts| - 1 :: Occurs(s, sep, Offset(parts, sep, i) + |parts[i]|))
    && |s| == Offset(parts, sep, |parts| - 1) + |parts[|parts| - 1]|
  }

  /** A join is laid out as its parts and separators. */
  lemma JoinLaidOut(parts: seq<string>, sep: string)
    requires |parts| > 0
    ensures LaidOut(Join(parts, sep), parts, sep)
  {
    JoinPartsAt(parts, sep);
    JoinSeparatorsAt(parts, sep);
    JoinLength(parts, sep);
  }

  /** The layout determines the string: whatever is laid out as `parts` and `sep` is their
      join (the converse of `JoinLaidOut`). */
  lemma LaidOutIsJoin(s: string, parts: seq<string>, sep: string)
    requires |parts| > 0
    requires LaidOut(s, parts, sep)
    ensures s == Join(parts, sep)
  {
    var j := Join(parts, sep);
    JoinLaidOut(parts, sep);
    forall p | 0 <= p < |s| ensures s[p] == j[p] {
      var i, inPart := Locate(parts, sep, p, 0);
      var o := Offset(parts, sep, i);
      if inPart {
        assert Occurs(s, parts[i], o) && Occurs(j, parts[i], o);
        assert s[o..o + |parts[i]|][p - o] == s[p];
        assert j[o..o + |parts[i]|][p - o] == j[p];
      } else {
        var q := o + |parts[i]|;
        assert Occurs(s, sep, q) && Occurs(j, sep, q);
        assert s[q..q + |sep|][p - q] == s[p];
        assert j[q..q + |sep|][p - q] == j[p];
      }
    }
  }

  /** Where position `p` of a layout falls, searching from part `i` on: inside part `r`,
      or inside the separator after it. */
  lemma {:induction false} Locate(parts: seq<string>, sep: string, p: nat, i: nat) returns (r: nat, inPart: bool)
    requires i < |parts|
    requires Offset(parts, sep, i) <= p < Offset(parts, sep, |parts| - 1) + |parts[|parts| - 1]|
    ensures i <= r < |parts|
    ensures inPart ==> Offset(parts, sep, r) <= p < Offset(parts, sep, r) + |parts[r]|
    ensures !inPart ==>
              && r < |parts| - 1
              && Offset(parts, sep, r) + |parts[r]| <= p < Offset(parts, sep, r) + |parts[r]| + |sep|
    decreases |parts| - i
  {
    var o := Offset(parts, sep, i);
    if p < o + |parts[i]| || i == |parts| - 1 {
      r, inPart := i, true;
    } else if p < o + |parts[i]| + |sep| {
      r, inPart := i, false;
    } else {
      OffsetStep(parts, sep, i);
      r, inPart := Locate(parts, sep, p, i + 1);
    }
  }

  /** The next part begins one separator after the current part ends. */
  lemma {:induction false} OffsetStep(parts: seq<string>, sep: string, i: nat)
    requires i + 1 < |parts|
    ensures Offset(parts, sep, i + 1) == Offset(parts, sep, i) + |parts[i]| + |sep|
    decreases i
  {
    if i > 0 {
      OffsetStep(parts[1..], sep, i - 1);
    }
  }

  /** Every part of a join sits at its offset. */
  lemma {:induction false} JoinPartsAt(parts: seq<string>, sep: string)
    requires |parts| > 0
    ensures forall i | 0 <= i < |parts| :: Occurs(Join(parts, sep), parts[i], Offset(parts, sep, i))
    decreases |parts|
  {
    if |parts| > 1 {
      var rest := parts[1..];
      var head := parts[0] + sep;
      assert Join(parts, sep) == head + Join(rest, sep);
      JoinPartsAt(rest, sep);
      forall i | 1 <= i < |parts|
        ensures Occurs(Join(parts, sep), parts[i], Offset(parts, sep, i))
      {
        assert parts[i] == rest[i - 1];
        ShiftOccurs(head, Join(rest, sep), parts[i], Offset(rest, sep, i - 1));
      }
    }
  }

  /** A separator follows every part of a join but the last. */
  lemma {:induction false} JoinSeparatorsAt(parts: seq<string>, sep: string)
    requires |parts| > 0
    ensures forall i | 0 <= i < |parts| - 1 ::
              Occurs(Join(parts, sep), sep, Offset(parts, sep, i) + |parts[i]|)
    decreases |parts|
  {
    if |parts| > 1 {
      var rest := parts[1..];
      var head := parts[0] + sep;
      var j := Join(parts, sep);
      assert j == head + Join(rest, sep);
      JoinSeparatorsAt(rest, sep);
      assert j[|parts[0]|..|parts[0]| + |sep|] == sep;
      forall i | 1 <= i < |parts| - 1
        ensures Occurs(j, sep, Offset(parts, sep, i) + |parts[i]|)
      {
        assert parts[i] == rest[i - 1];
        ShiftOccurs(head, Join(rest, sep), sep, Offset(rest, sep, i - 1) + |rest[i - 1]|);
      }
    }
  }

  /** A join ends where its last part ends. */
  lemma {:induction false} JoinLength(parts: seq<string>, sep: string)
    requires |parts| > 0
    ensures |Join(parts, sep)| == Offset(parts, sep, |parts| - 1) + |parts[|parts| - 1]|
    decreases |parts|
  {
    if |parts| > 1 {
      JoinLength(parts[1..], sep);
    }
  }

  /** An occurrence in `b` is an occurrence in `a + b`, shifted by `|a|`. */
  lemma ShiftOccurs(a: string, b: string, x: string, k: nat)
    requires Occurs(b, x, k)
    ensures Occurs(a + b, x, |a| + k)
  {
    assert (a + b)[|a| + k..|a| + k + |x|] == b[k..k + |x|];
  }

  /** Joining one more part extends the previous join by the separator and that part —
      the order in which Go's `strings.Join` writes its output. */
  lemma {:induction false} JoinSnoc(parts: seq<string>, x: string, sep: string)
    requires |parts| > 0
    ensures Join(parts + [x], sep) == Join(parts, sep) + sep + x
    decreases |parts|
  {
    if |parts| > 1 {
      assert (parts + [x])[1..] == parts[1..] + [x];
      JoinSnoc(parts[1..], x, sep);
    } else {
      assert parts + [x] == [parts[0], x];
    }
  }
}
